=== FILE: README.md ===
# Workspace sales agent — a Dafny model

The repository is a Streamlit demo of a sales assistant embedded in a
simulated Gmail inbox. A visitor picks one of three generated micro-business
personas. A generative service then plays a sales rep. The rep's raw answer
has the form `reply ||| score ||| chip | chip | chip`. The page splits it into
the reply text, a lead score and a list of suggestion chips, of which the
first three become buttons. The score
colours a badge and unlocks an upgrade button from 70. Three exit buttons
end the chat with a service-made summary. A second, scripted dialogue
(`get_state`) holds a fixed consultative-sales conversation.

The model has five modules:

- `Wrappers`: `Option`, for Python's `None`-or-value.
- `PyStrings`: the parts of Python's `str` the code relies on, written from
  scratch with an independent characterisation of each. These are
  `sub in s`, `s.split(sep)`, `s.strip()` over Python's whitespace set,
  `s.lower()` on ASCII letters and the literal syntax `int()` accepts. For
  `int()` the partners are `str()` of a number, read back exactly with or
  without a minus, and the surrounding whitespace `int()` ignores. Numerals
  past CPython's default limit of 4300 digits are rejected, as `int()`
  raises `ValueError` for them.
- `Logic` (logic.py):
  - persona generation, with its SKU rule and distinct industries;
  - assembly of the request sent to the service;
  - the `|||` parser with its defaults;
  - the error tuples of `get_gemini_response`;
  - the fallbacks of `summarize_conversation`.
- `LogicExamples`: the parser run on concrete answers, among them the
  example answer printed in the prompt itself, with its three chips.
- `Script` (script.py): the dialogue table, word for word, and its graph
  properties. Every answer leads into the table and to a larger step id.
  Conversations therefore end within six answers. They stop exactly at the
  three closing steps, and every step can be reached.
- `App` (app.py, with the Restart button of ui.py's exit page): the
  session state as a state machine.
  - Each click or submitted line is an `Event` and one rerun of the script.
  - `Apply` is what the rerun does to the session.
  - `Enabled` says which widgets the previous render put on screen.

Outside effects are parameters:

- `Env.generate` is the chat call. It yields the answer text, or the message
  of the exception it raised.
- `Env.summarize` is the summary call. It yields the decoded JSON object, or
  failure.
- `Config` is the API key read at start-up.
- The draws of `random.sample` and `random.choice` are index inputs of
  `Logic.GenerateProfiles`.

One behaviour of the code is worth knowing. The agent panel stops drawing
in two cases, and everything after that point is then missing: the chips,
the chat input, the exit buttons and the icon strip.

- The parser passes the score field on unchecked, and app.py calls `int()`
  on it at the score badge. A score field that is not an integer stops the
  panel there.
- A failed call (no API key, or the service raised) stores an empty chip
  list. app.py then asks `st.columns` for zero columns, which Streamlit
  rejects.

Either way only the panel's close button still works, and reopening the
panel fails the same way (`App.UncheckedScoreReachesBadge`,
`App.FailedTurnStallsChat`, `App.BrokenPanelStallsChat`,
`App.ReopenedPanelStaysBroken`, `LogicExamples.ParseReplyScoreUnchecked`).
The model states this behaviour as the code has it.

logic.py neither caps nor de-duplicates the chips: it keeps every
`|`-separated piece of the third field. Text without `|||` is returned
unstripped.

## Model

| member | source | states |
|---|---|---|
| PyStrings.Strip | logic.py:93-95 | `s.strip()` removes exactly the leading and trailing Python whitespace: the result is an infix of `s` flanked by whitespace only, and it neither starts nor ends with whitespace |
| PyStrings.StripUnique | logic.py:93-95 | any infix flanked by whitespace that has no whitespace at either end is the strip of `s`, so `Strip` is characterised independently of its definition |
| PyStrings.StripIdempotent | logic.py:93-95 | stripping twice is stripping once |
| PyStrings.TrimLeftOfSpacePrefix | logic.py:93-95 | removing leading whitespace stops at the first non-space character, wherever that is |
| PyStrings.TrimRightOfSpaceSuffix | logic.py:93-95 | removing trailing whitespace stops after the last non-space character |
| PyStrings.ContainsScan | logic.py:90 | `sub in s` holds iff `s` starts with `sub` or its tail contains `sub` |
| PyStrings.ContainsSkipsPrefix | logic.py:41 | a prefix that lacks the first character of `sub` cannot host an occurrence |
| PyStrings.Split | logic.py:91 | `s.split(sep)` yields at least one field, and joining the fields with `sep` gives back `s` |
| PyStrings.SplitFieldsAvoidSeparator | logic.py:91 | no field of `s.split(sep)` contains `sep` |
| PyStrings.SplitCutsLeftmost | logic.py:91 | `s.split(sep)` cuts at the leftmost occurrence: one field means no occurrence and the field is `s`; otherwise the first field is the prefix before the first occurrence and the other fields are the split of what follows it. With the join round trip this fixes the result, also for the delimiter of three bars, whose occurrences can overlap |
| PyStrings.SplitHasSecondFieldIffContains | logic.py:90-92 | `s.split(sep)` has two or more fields iff `sep in s`, so the delimiter test and the field count agree |
| PyStrings.SplitWithoutSeparator | logic.py:90 | without the separator the split is the one-field list `[s]` |
| PyStrings.SplitAfterFirstField | logic.py:91 | a first field free of the separator's first character is split off and the rest is split on its own |
| PyStrings.SplitOnCharCount | logic.py:95 | splitting on one character yields one more field than there are occurrences of it |
| PyStrings.IsIntLiteral | app.py:108 | a text `int()` accepts strips to an optional sign and a digit run of at most 4300 digits, underscores not counted, so it ends in a digit |
| PyStrings.IntValue | app.py:108 | `int()` of an accepted text is negative only when the text starts with a minus, and a leading minus never gives a positive value |
| PyStrings.DecimalRoundTrip | app.py:108 | `int(str(n)) == n` for every natural `n` whose numeral has at most 4300 digits: each such numeral is accepted and read back exactly |
| PyStrings.NegativeDecimalRoundTrip | app.py:108 | `int("-" + str(n)) == -n` for every natural `n` whose numeral has at most 4300 digits |
| PyStrings.LongDecimalRejected | app.py:108 | a numeral of more than 4300 digits is rejected with or without a minus, so such a score stalls the agent panel like any other rejected score |
| PyStrings.PaddedIntLiteral | app.py:108 | whitespace around an accepted text keeps it accepted with the same value |
| PyStrings.SameStripSameInt | app.py:108 | two texts with the same strip are accepted alike and give the same value |
| PyStrings.StripIgnoresPadding | logic.py:93-95 | extra whitespace around a text does not change its strip |
| PyStrings.Lower | logic.py:46 | `lower()` leaves no ASCII capital, lowers each capital by 32 code points and keeps every other character |
| Logic.SkuFor | logic.py:41 | Business Starter iff the size text contains "seats", Personal Gmail otherwise |
| Logic.SkuOfSize | logic.py:27-41 | of the four sizes only "Solopreneur (1 seat)" stays on Personal Gmail, because "seat)" does not contain "seats" |
| Logic.GenerateProfiles | logic.py:24-48 | three personas with pairwise distinct industries; each has the drawn industry as name and industry, the drawn size, the drawn pain point's title and description, the SKU the size implies, and the goal "Fix <lowered title> issues and scale business." |
| Logic.SystemPromptShape | logic.py:57-72 | the prompt starts with the fixed framing, names the persona's industry right after "CONTEXT: ", puts the pain-point description just before the fixed instructions, and ends with them |
| Logic.FramedShape | logic.py:57-58 | the framed prompt starts with its head, has the industry right after it, the pain-point description right before the tail, and ends with the tail |
| Logic.HistoryContents | logic.py:75-77 | the transcript maps entry by entry: "assistant" becomes "model", every other role "user", and the content is kept |
| Logic.Request | logic.py:74-79 | a request is the system text as a "user" entry, the transcript entry by entry with "assistant" sent as "model", then the input as a "user" entry; its length is the transcript's plus two |
| Logic.AssembleContents | logic.py:74-79 | the request is the system prompt as a "user" entry, then the whole transcript in order, then the new input as a "user" entry; every role is "user" or "model" |
| Logic.ParseReply | logic.py:85-100 | one field: raw text, score "50", the three default chips; two fields: both stripped, default chips; three or more: stripped reply and score, chips from the third field only |
| Logic.ParseReplyWithoutDelimiter | logic.py:85-90 | without the delimiter the reply is the raw text, not even stripped, with score "50" and the default chips |
| Logic.ParseReplyWithDelimiter | logic.py:90-98 | with the delimiter there are at least two fields, and the reply and score are the stripped first two |
| Logic.ParseReplyChipCount | logic.py:92-95 | with three or more fields there is one chip per bar in the third field plus one, each stripped: the list is neither capped at three nor de-duplicated |
| Logic.ParseReplyAlwaysHasChips | logic.py:88-95 | the parser never returns an empty chip list |
| Logic.ParseReplyTwoFields | logic.py:96-98 | for a reply and score without a bar, reply, delimiter, score parses to the stripped pair with the default chips |
| Logic.ParseReplyThreeFields | logic.py:92-95 | for a reply and score without a bar, reply, delimiter, score, delimiter, rest takes its chips from the text of rest before its first delimiter only; later fields are dropped |
| Logic.ChipsOfTwo | logic.py:95 | a chip field with one bar gives its two stripped halves |
| Logic.ChipsOfThree | logic.py:95 | a chip field with two bars gives its three stripped pieces |
| Logic.SingleBarsNoDelimiter | logic.py:90-95 | a chip field whose bars stand alone never holds the three-bar delimiter |
| Logic.FormatAnswerParses | logic.py:66-98 | an answer laid out as the prompt asks (text, score, three suggestions, joined by " ||| " and " | ") parses back to exactly those parts, as long as no part holds a bar or has whitespace at either end |
| Logic.FormatFields | logic.py:92-94 | in that layout the reply and score come back whole and the chips come from the third field |
| Logic.FormatChips | logic.py:95 | in that layout the chip field is one three-bar field and gives the three suggestions |
| Logic.FormatAnswerStripped | logic.py:66-71 | an answer in that layout has no whitespace at its ends when its text and its last suggestion have none |
| Logic.GetGeminiResponse | logic.py:50-103 | without a client: the key error text, score "0", no chips; if the call raises: "Connection Error: " followed by the message, score "0", no chips; otherwise the parse of the answer to the assembled request |
| Logic.EmptyChipsIffFailure | logic.py:55-103 | the chip list is empty iff there is no client or the call raised |
| Logic.SummarizeConversation | logic.py:105-137 | without a client the summary is empty; a failed call or decode gives the four-key error record with Track "Error"; otherwise the decoded object |
| LogicExamples.ParseReplyTwoFieldExample | logic.py:96-98 | "Sure thing", delimiter, " 40" parses to ("Sure thing", "40", default chips) |
| LogicExamples.ParseReplyPromptExample | logic.py:71-95 | the example line of the prompt strips to the example answer, which parses to "That sounds tough. Most agencies upgrade to Standard for 2TB storage.", score "40" and the three chips "How much is it?", "I don't have budget" and "Tell me more" |
| LogicExamples.PromptExampleLineStrips | logic.py:70-72 | the example line inside the prompt is the example answer with only indentation around it |
| LogicExamples.ParseReplyScoreUnchecked | logic.py:94 | a score field "high" is returned as the score although `int()` rejects it |
| LogicExamples.OverlappingDelimiterCutsLeft | logic.py:90-98 | four bars split into an empty field and a one-bar field, the leftmost cut, so they parse to an empty reply, a one-bar score and the default chips |
| Script.GetState | script.py:6-91 | a step exists exactly for ids 0-9 and 99, and it offers no answer exactly at the closing steps 8, 9 and 99 |
| Script.AnswersStayInTable | script.py:10-89 | every answer leads to a step of the table |
| Script.AnswersMoveForward | script.py:10-89 | every answer leads to a larger step id |
| Script.AnswerCounts | script.py:10-89 | closing steps offer no answer, the others one to three, with distinct labels |
| Script.ClosingPredecessors | script.py:57-72 | the trial and the walk-away are reached only from the discount offer (step 7); the upgrade only from the pricing step (6) and step 7 |
| Script.AnswersLowerRemaining | script.py:10-89 | a bound on the answers left drops with every answer and is zero exactly at the closing steps |
| Script.PathLengthBound | script.py:10-89 | a conversation from a step has at most the bound's number of answers |
| Script.ConversationsEnd | script.py:10-89 | every conversation from the greeting ends within six answers |
| Script.LongestConversation | script.py:11-74 | six answers do occur (greeting, contracts, DocuSign, "Really? How?", pricing, over budget, discount) |
| Script.OnlyClosingStepsStop | script.py:10-89 | a conversation not at a closing step can go on with that step's first answer; at a closing step it cannot |
| Script.StepReachable | script.py:10-89 | every step of the table is reached by some conversation from the greeting |
| App.InitialSession | app.py:15-24 | the first run shows the welcome page with the given personas, no transcript, no persona, no panel, no summary, no exit, score "0" and no chips |
| App.SceneOf | app.py:29-84 | welcome page iff not started; exit page iff started with the exit flag; the inbox otherwise |
| App.ScoreColor | app.py:109 | the badge is red exactly below 50, orange exactly from 50 to 79, green exactly from 80 |
| App.UpgradeOffered | app.py:148 | the upgrade button is never shown beside a red badge and always beside a green one |
| App.Enabled | app.py:29-175 | the exit page offers only the restart button; the welcome page only Start and regenerate; chips, the chat input and the exit buttons need a usable chat; a chip is one of the first three shown |
| App.ScoreColorMonotone | app.py:109-148 | the badge colour never drops as the score rises; the upgrade offer (from 70) never appears on red, always on green |
| App.OpeningLineNamesPainPoint | app.py:65 | the opening line starts "Hi. I noticed " and names the persona's pain-point title right after it |
| App.StartSimulation | app.py:60-71 | a Start click selects that persona, opens the inbox with the one assistant line about its pain point, the three opening chips and score "0", and keeps the personas, panel, summary and exit reason |
| App.UserTurn | app.py:121-137 | a chip or a typed line appends the user message and the backend's reply text, replaces score and chips by the backend's, and changes nothing else |
| App.Toggle | app.py:170-174 | an icon opens its panel iff that panel was not open, and otherwise closes the panel |
| App.ExitChat | app.py:140-160 | an exit button stores the summary for its reason and shows the exit page, changing nothing else |
| App.Apply | app.py:60-175 | an empty chat line changes nothing; a chip or a typed line is one user turn with that text; no event sets the exit reason |
| App.TurnKeepsAlternation | app.py:124-134 | a user turn extends an alternating transcript by one user-assistant exchange |
| App.ApplyKeepsInv | app.py:15-175 | every enabled event, the restart included, keeps the invariant: without a persona there is no transcript and no simulation; with one the transcript has odd length, opens with the assistant and alternates; the exit page needs a running simulation; no exit reason is set |
| App.RunKeepsInv | app.py:15-175 | the invariant holds after any playable sequence of events |
| App.ReachableSessions | app.py:15-175 | every session reached from the first run satisfies the invariant |
| App.TurnRequestRepeatsUtterance | app.py:124-133 | the turn's request opens with the system prompt and ends with the utterance twice, once from the transcript and once as the new input |
| App.QuietEventsKeepConversation | app.py:75-175 | closing or toggling a panel, new personas and the exit buttons leave transcript, score, chips and persona alone |
| App.ToggleTwice | app.py:170-174 | two clicks on one icon restore a closed panel or that panel, and close the other one |
| App.ExitOffersOnlyRestart | ui.py:102-144 | an exit lands on the exit page, whose only event is the restart button |
| App.RestartKeepsConversation | ui.py:141-144 | a restart shows the welcome page but keeps persona, transcript, score, chips and summary |
| App.FailedTurnStallsChat | app.py:108-137 | a turn without a client or with a failed call stores score "0" and no chips, after which the agent panel is stuck with only its close button |
| App.StartOpensChat | app.py:60-174 | after a Start click the agent icon opens a usable chat with a red badge at 0 and no upgrade button |
| App.AgentIconOpensPanel | app.py:173-174 | in the inbox with the agent panel closed, the agent icon is on screen and opens that panel |
| App.ZeroScoreChatOpens | app.py:107-149 | a fully drawn agent panel at score 0 has a red badge and no upgrade button |
| App.ZeroIsAnInteger | app.py:108 | `int("0")` accepts the text and gives 0 |
| App.UncheckedScoreReachesBadge | app.py:108-136 | when the service's score field is not an integer, the turn stores it with the agent panel open |
| App.BrokenPanelStallsChat | app.py:102-175 | with a score `int()` rejects or no chip, the agent panel is not usable and only its close button remains |
| App.ReopenedPanelStaysBroken | app.py:102-175 | closing such a panel and reopening it gives back the same broken panel |

## Left out

- Rendering is not modelled: HTML, CSS, column widths, the images and ui.py's top bar, sidebar and exit-page recap. The only part kept is which buttons a render puts on screen, the Restart button of ui.py's exit page among them.
- The generative service, the client construction and the model name read from the environment are not modelled. The service calls are the `Env` functions, and `Config` holds only the key.
- `response.text` being `None` makes logic.py raise inside its `try`. The model folds this into the `Err` case of the call.
- `summarize_conversation`'s prompt text and `json.loads` are not modelled. `Env.summarize` yields the decoded object or failure, and the object's values are taken as strings.
- App.ExitOffersOnlyRestart: holds when the summary decodes to a JSON object, which is what `SummaryResult.Parsed` carries. A reply that decodes to another JSON value, such as a list, is not modelled. ui.py:106 calls `.get` on it, which raises before the Restart button is drawn, so such an exit page would offer no event at all.
- Streamlit is not part of this model. `App.AgentPanelDraws` takes `st.columns` to reject a count of zero, which is the library's documented behaviour.
- `random.sample` and `random.choice` are not modelled. Their results are inputs, with `random.sample`'s distinctness as a precondition of `Logic.GenerateProfiles`.
- `MAX_SEATS` is declared in logic.py but never used.
- PyStrings.Lower: covers ASCII letters only. The pain-point titles are ASCII.
- PyStrings.IsIntLiteral: accepts ASCII digits only, while Python's `int()` also accepts other Unicode decimal digits. Scores with such digits are treated as rejected. The 4300-digit limit is CPython's default from 3.11 and the matching security releases of 3.7 to 3.10. Older interpreters have no limit, and `sys.set_int_max_str_digits` or `PYTHONINTMAXSTRDIGITS` can change it; the model fixes it at the default.
- eval_judge.py, an offline evaluation script, is not part of this model.

=== FILE: app.dfy ===
/**
  The page of the sales-agent demo (app.py) as a state machine over the
  Streamlit session state. Each rerun of the script that follows a click or
  a submitted chat line is one `Event`; `Apply` is the change the script
  makes to the session before it reruns, and `Enabled` says which widgets
  the rerun that drew the page had put on screen, so which events can occur.

  The services the page calls are the `Env` parameters: `generate` answers
  the chat request, `summarize` answers the summary request.
 */
module App {
  import opened Wrappers
  import opened PyStrings
  import opened Logic

  // ---------------------------------------------------------------------------
  // Session state

  /** The right-hand panel: the sales agent or the task list. */
  datatype Panel = Agent | Tasks

  /** `st.session_state`, one field per key the page initialises. */
  datatype Session = Session(
    profiles: seq<Profile>,
    selectedProfile: Option<Profile>,
    activePanel: Option<Panel>,
    messages: seq<Message>,
    leadScore: string,
    simulationStarted: bool,
    exitPage: bool,
    exitReason: Option<string>,
    summaryData: map<string, string>,
    currentSuggestions: seq<string>)

  /** The three scenes the script routes between. */
  datatype Scene = Welcome | ExitPage | Workspace

  /** The outside world of one session: the configuration read at start-up
      and the two service calls (chat request; summary of profile,
      transcript and exit reason). */
  datatype Env = Env(
    config: Config,
    generate: seq<Content> -> GenResult,
    summarize: (Profile, seq<Message>, string) -> SummaryResult)

  /** The first run: every key set to its default, the personas given. */
  function InitialSession(profiles: seq<Profile>): (s: Session)
    ensures SceneOf(s) == Welcome
    ensures s.profiles == profiles && s.messages == [] && s.summaryData == map[]
    ensures s.selectedProfile == None && s.activePanel == None && s.exitReason == None
    ensures s.leadScore == "0" && s.currentSuggestions == [] && !s.exitPage
    ensures Inv(s)
  {
    Session(profiles, None, None, [], "0", false, false, None, map[], [])
  }

  /** Routing: the welcome page until a simulation starts, then the exit
      page once an exit button was used, the simulated inbox otherwise. */
  function SceneOf(s: Session): (scene: Scene)
    ensures scene == Welcome <==> !s.simulationStarted
    ensures scene == ExitPage <==> s.simulationStarted && s.exitPage
  {
    if !s.simulationStarted then Welcome
    else if s.exitPage then ExitPage
    else Workspace
  }

  // ---------------------------------------------------------------------------
  // Lead score display

  datatype Color = Red | Orange | Green

  /** The badge colour of a score: red below 50, green from 80, orange between. */
  function ScoreColor(score: int): (c: Color)
    ensures c == Red <==> score < 50
    ensures c == Orange <==> 50 <= score < 80
    ensures c == Green <==> 80 <= score
  {
    if score < 50 then Red else if score < 80 then Orange else Green
  }

  function ColorRank(c: Color): nat
  {
    match c
    case Red => 0
    case Orange => 1
    case Green => 2
  }

  /** The upgrade button is shown from a score of 70: never beside a red
      badge, always beside a green one. */
  predicate UpgradeOffered(score: int): (offered: bool)
    ensures offered ==> ScoreColor(score) != Red
    ensures ScoreColor(score) == Green ==> offered
  {
    score >= 70
  }

  /** The colour never drops as the score rises; the upgrade offer is never
      shown on a red badge, always on a green one, and on orange only from 70. */
  lemma ScoreColorMonotone(a: int, b: int)
    requires a <= b
    ensures ColorRank(ScoreColor(a)) <= ColorRank(ScoreColor(b))
    ensures UpgradeOffered(a) ==> UpgradeOffered(b)
    ensures UpgradeOffered(a) ==> ScoreColor(a) != Red
    ensures ScoreColor(a) == Green ==> UpgradeOffered(a)
    ensures ScoreColor(a) == Orange ==> (UpgradeOffered(a) <==> a >= 70)
  {
  }

  // ---------------------------------------------------------------------------
  // Events

  /** Why the user left the chat: the Sales, Upgrade and End Chat buttons. */
  datatype ExitKind = Contact | Upgrade | General

  function ReasonOf(kind: ExitKind): string
  {
    match kind
    case Contact => "contact"
    case Upgrade => "upgrade"
    case General => "general"
  }

  /** One rerun caused by the user. `NewPersonas` carries the list the
      persona generator produced for it; `Restart` is the button of the exit
      page (ui.py). */
  datatype Event =
    | Start(index: nat)
    | NewPersonas(personas: seq<Profile>)
    | ClosePanel
    | Chip(index: nat)
    | Typed(prompt: string)
    | Exit(kind: ExitKind)
    | ToggleTasks
    | ToggleAgent
    | Restart

  /** The agent panel's body renders past the chips: the stored score is
      something `int()` accepts, and there is at least one chip, since
      `st.columns` rejects a column count of zero. Otherwise the script
      raises at the score badge or at the chip row, and nothing after it is
      drawn: no chips, chat input, exit buttons or icon strip. */
  predicate AgentPanelDraws(s: Session)
  {
    IsIntLiteral(s.leadScore) && s.currentSuggestions != []
  }

  /** The chat is usable: the inbox is shown with a fully drawn agent panel. */
  predicate ChatOpen(s: Session)
  {
    && SceneOf(s) == Workspace
    && s.selectedProfile.Some?
    && s.activePanel == Some(Agent)
    && AgentPanelDraws(s)
  }

  /** The inbox is drawn up to the end of the script: the panel is the task
      list, closed, or a fully drawn agent panel. */
  predicate StripShown(s: Session)
  {
    && SceneOf(s) == Workspace
    && s.selectedProfile.Some?
    && (s.activePanel == Some(Agent) ==> AgentPanelDraws(s))
  }

  /** Which events the page on screen allows. On the welcome page: a Start
      button per persona and the regenerate button. On the exit page: the
      restart button. In the inbox: the close button whenever a panel is open; the
      chips (the first three at most), the chat input and the exit buttons
      while the chat is open, the upgrade only from a score of 70; and the
      two icons while the strip is drawn. */
  predicate Enabled(s: Session, ev: Event): (ok: bool)
    ensures SceneOf(s) == ExitPage ==> (ok <==> ev == Restart)
    ensures ok && SceneOf(s) == Welcome ==> ev.Start? || ev.NewPersonas?
    ensures ok && (ev.Chip? || ev.Typed? || ev.Exit?) ==> ChatOpen(s)
    ensures ok && ev.Chip? ==> ev.index < 3 && ev.index < |s.currentSuggestions|
  {
    match ev
    case Start(i) => SceneOf(s) == Welcome && i < |s.profiles|
    case NewPersonas(_) => SceneOf(s) == Welcome
    case ClosePanel => SceneOf(s) == Workspace && s.selectedProfile.Some? && s.activePanel.Some?
    case Chip(i) => ChatOpen(s) && i < 3 && i < |s.currentSuggestions|
    case Typed(_) => ChatOpen(s)
    case Exit(kind) => ChatOpen(s) && (kind == Upgrade ==> UpgradeOffered(IntValue(s.leadScore)))
    case ToggleTasks => StripShown(s)
    case ToggleAgent => StripShown(s)
    case Restart => SceneOf(s) == ExitPage
  }

  // ---------------------------------------------------------------------------
  // Transitions

  /** The assistant's opening line for a persona, naming its pain point. */
  function OpeningLine(p: Profile): string
  {
    OpeningHead + p.painPointTitle + OpeningRest
  }

  const OpeningHead := "Hi. I noticed "
  const OpeningRest := " is flagging up. That usually kills productivity. How is that impacting your day-to-day?"

  /** The opening line starts with the greeting and names the persona's
      pain-point title right after it. */
  lemma OpeningLineNamesPainPoint(p: Profile)
    ensures StartsWith(OpeningLine(p), OpeningHead)
    ensures OccursAt(OpeningLine(p), p.painPointTitle, |OpeningHead|)
  {
    Enclosed(OpeningHead, p.painPointTitle, OpeningRest);
  }

  lemma Enclosed(pre: string, x: string, post: string)
    ensures StartsWith(pre + x + post, pre)
    ensures OccursAt(pre + x + post, x, |pre|)
  {
    var r := pre + x + post;
    assert r[..|pre|] == pre;
    assert r[|pre|..|pre| + |x|] == x;
  }

  const OpeningChips: seq<string> := ["Yes, it costs us time.", "Why is this happening?", "It's manageable for now."]

  /** The Start button of persona `i`: the persona is selected and a fresh
      conversation opens with the assistant's line, three canned chips and a
      score of "0". The open panel and the summary are left as they were. */
  function StartSimulation(s: Session, i: nat): (t: Session)
    requires i < |s.profiles|
    ensures SceneOf(t) == Workspace
    ensures t.selectedProfile == Some(s.profiles[i])
    ensures t.messages == [Message("assistant", OpeningLine(s.profiles[i]))]
    ensures t.leadScore == "0"
    ensures t.currentSuggestions == OpeningChips
    ensures t.profiles == s.profiles && t.activePanel == s.activePanel && t.summaryData == s.summaryData
    ensures t.exitReason == s.exitReason
  {
    var p := s.profiles[i];
    s.(selectedProfile := Some(p),
       messages := [Message("assistant", OpeningLine(p))],
       currentSuggestions := OpeningChips,
       leadScore := "0",
       exitPage := false,
       simulationStarted := true)
  }

  /** The request a user turn sends: the transcript already holds the new
      utterance when the backend appends it once more. */
  function TurnRequest(s: Session, utterance: string): (contents: seq<Content>)
    requires s.selectedProfile.Some?
  {
    AssembleContents(s.selectedProfile.value, s.messages + [Message("user", utterance)], utterance)
  }

  /** A chip click or a submitted line: the utterance is appended as the
      user's message, the backend is asked, and its reply text is appended
      as the assistant's message while its score and chips replace the
      stored ones. */
  function UserTurn(s: Session, utterance: string, env: Env): (t: Session)
    requires s.selectedProfile.Some?
    ensures var r := GetGeminiResponse(env.config, utterance, s.selectedProfile.value,
                                       s.messages + [Message("user", utterance)], env.generate);
      && t.messages == s.messages + [Message("user", utterance), Message("assistant", r.text)]
      && t.leadScore == r.score
      && t.currentSuggestions == r.chips
    ensures t.(messages := s.messages, leadScore := s.leadScore, currentSuggestions := s.currentSuggestions) == s
  {
    var history := s.messages + [Message("user", utterance)];
    var r := GetGeminiResponse(env.config, utterance, s.selectedProfile.value, history, env.generate);
    s.(messages := history + [Message("assistant", r.text)],
       leadScore := r.score,
       currentSuggestions := r.chips)
  }

  /** The next panel after clicking the icon of `panel`: it opens, or closes
      when it was the one open. */
  function Toggle(current: Option<Panel>, panel: Panel): (next: Option<Panel>)
    ensures next == Some(panel) <==> current != Some(panel)
    ensures next != Some(panel) ==> next == None
  {
    if current != Some(panel) then Some(panel) else None
  }

  /** An exit button: the summary of the transcript under the button's
      reason is stored and the exit page is shown. */
  function ExitChat(s: Session, kind: ExitKind, env: Env): (t: Session)
    requires s.selectedProfile.Some?
    ensures t.summaryData == SummarizeConversation(env.config,
      env.summarize(s.selectedProfile.value, s.messages, ReasonOf(kind)))
    ensures t.exitPage
    ensures t.(summaryData := s.summaryData, exitPage := s.exitPage) == s
  {
    s.(summaryData := SummarizeConversation(env.config,
         env.summarize(s.selectedProfile.value, s.messages, ReasonOf(kind))),
       exitPage := true)
  }

  /** The session after the rerun caused by `ev`. */
  function Apply(s: Session, ev: Event, env: Env): (t: Session)
    requires Enabled(s, ev)
    ensures ev.Typed? && ev.prompt == "" ==> t == s
    ensures ev.Typed? && ev.prompt != "" ==> t == UserTurn(s, ev.prompt, env)
    ensures ev.Chip? ==> t == UserTurn(s, s.currentSuggestions[ev.index], env)
    ensures t.exitReason == s.exitReason
  {
    match ev
    case Start(i) => StartSimulation(s, i)
    case NewPersonas(personas) => s.(profiles := personas)
    case ClosePanel => s.(activePanel := None)
    case Chip(i) => UserTurn(s, s.currentSuggestions[i], env)
    case Typed(prompt) => if prompt == "" then s else UserTurn(s, prompt, env)
    case Exit(kind) => ExitChat(s, kind, env)
    case ToggleTasks => s.(activePanel := Toggle(s.activePanel, Tasks))
    case ToggleAgent => s.(activePanel := Toggle(s.activePanel, Agent))
    case Restart => s.(simulationStarted := false, exitPage := false)
  }

  // ---------------------------------------------------------------------------
  // Invariant

  /** The transcript opens with the assistant and then alternates, so it
      has odd length. */
  predicate Alternates(msgs: seq<Message>)
  {
    && |msgs| % 2 == 1
    && forall k :: 0 <= k < |msgs| ==> msgs[k].role == (if k % 2 == 0 then "assistant" else "user")
  }

  /** What every reachable session satisfies: until a persona is chosen
      nothing has been said and no simulation runs; once one is chosen the
      transcript alternates, also on the welcome page a restart leads back
      to; the exit page only shows during a simulation. */
  predicate Inv(s: Session)
  {
    && (s.selectedProfile == None ==> s.messages == [] && !s.simulationStarted)
    && (s.selectedProfile.Some? ==> Alternates(s.messages))
    && (!s.simulationStarted ==> !s.exitPage)
    && s.exitReason == None
  }

  /** A user turn keeps the transcript alternating and adds one exchange. */
  lemma {:induction false} TurnKeepsAlternation(msgs: seq<Message>, utterance: string, reply: string)
    requires Alternates(msgs)
    ensures Alternates(msgs + [Message("user", utterance), Message("assistant", reply)])
  {
    var m := msgs + [Message("user", utterance), Message("assistant", reply)];
    forall k | 0 <= k < |m| ensures m[k].role == (if k % 2 == 0 then "assistant" else "user") {
      if k < |msgs| {
        assert m[k] == msgs[k];
      } else if k == |msgs| {
        assert k % 2 == 1;
      } else {
        assert k % 2 == 0;
      }
    }
  }

  /** Every enabled event keeps the invariant. */
  lemma ApplyKeepsInv(s: Session, ev: Event, env: Env)
    requires Inv(s) && Enabled(s, ev)
    ensures Inv(Apply(s, ev, env))
  {
    match ev
    case Chip(i) =>
      TurnKeepsAlternation(s.messages, s.currentSuggestions[i],
        GetGeminiResponse(env.config, s.currentSuggestions[i], s.selectedProfile.value,
          s.messages + [Message("user", s.currentSuggestions[i])], env.generate).text);
    case Typed(prompt) =>
      if prompt != "" {
        TurnKeepsAlternation(s.messages, prompt,
          GetGeminiResponse(env.config, prompt, s.selectedProfile.value,
            s.messages + [Message("user", prompt)], env.generate).text);
      }
    case _ =>
  }

  /** `events` can be played from `s` one after the other. */
  predicate Playable(s: Session, events: seq<Event>, env: Env)
    decreases |events|
  {
    events == [] || (Enabled(s, events[0]) && Playable(Apply(s, events[0], env), events[1..], env))
  }

  /** The session after playing `events`. */
  function Run(s: Session, events: seq<Event>, env: Env): Session
    requires Playable(s, events, env)
    decreases |events|
  {
    if events == [] then s else Run(Apply(s, events[0], env), events[1..], env)
  }

  /** Every session reached from the first run satisfies the invariant. */
  lemma {:induction false} RunKeepsInv(s: Session, events: seq<Event>, env: Env)
    requires Inv(s) && Playable(s, events, env)
    ensures Inv(Run(s, events, env))
    decreases |events|
  {
    if events != [] {
      ApplyKeepsInv(s, events[0], env);
      RunKeepsInv(Apply(s, events[0], env), events[1..], env);
    }
  }

  /** The first run satisfies the invariant, so every reachable session does. */
  lemma ReachableSessions(profiles: seq<Profile>, events: seq<Event>, env: Env)
    requires Playable(InitialSession(profiles), events, env)
    ensures Inv(Run(InitialSession(profiles), events, env))
  {
    RunKeepsInv(InitialSession(profiles), events, env);
  }

  // ---------------------------------------------------------------------------
  // Properties of single events

  /** The request of a user turn opens with the system prompt, carries the
      transcript in the service's roles, and ends with the utterance twice:
      once as the transcript's last entry and once as the new input. */
  lemma TurnRequestRepeatsUtterance(s: Session, utterance: string)
    requires s.selectedProfile.Some?
    ensures var req := TurnRequest(s, utterance);
      && |req| == |s.messages| + 3
      && req[0] == Content("user", SystemPrompt(s.selectedProfile.value))
      && req[|req| - 2] == Content("user", utterance)
      && req[|req| - 1] == Content("user", utterance)
  {
    var history := s.messages + [Message("user", utterance)];
    assert history[|history| - 1].role == "user";
  }

  /** The transitions that do not talk to the services leave the transcript,
      the score and the chips alone. */
  lemma QuietEventsKeepConversation(s: Session, ev: Event, env: Env)
    requires Enabled(s, ev)
    requires ev.ClosePanel? || ev.ToggleTasks? || ev.ToggleAgent? || ev.NewPersonas? || ev.Exit?
    ensures var t := Apply(s, ev, env);
      && t.messages == s.messages
      && t.leadScore == s.leadScore
      && t.currentSuggestions == s.currentSuggestions
      && t.selectedProfile == s.selectedProfile
      && t.simulationStarted == s.simulationStarted
  {
  }

  /** Clicking an icon twice restores the panel that was open, when it was
      none or that panel; from the other panel, two clicks close it. */
  lemma ToggleTwice(current: Option<Panel>, panel: Panel)
    ensures current == None || current == Some(panel) ==> Toggle(Toggle(current, panel), panel) == current
    ensures current.Some? && current != Some(panel) ==> Toggle(Toggle(current, panel), panel) == None
  {
  }

  /** An exit always lands on the exit page, where the restart button is
      the only event. */
  lemma ExitOffersOnlyRestart(s: Session, kind: ExitKind, env: Env, next: Event)
    requires Enabled(s, Exit(kind))
    ensures SceneOf(Apply(s, Exit(kind), env)) == ExitPage
    ensures Enabled(Apply(s, Exit(kind), env), next) <==> next == Restart
  {
  }

  /** A restart shows the welcome page again but clears only the two scene
      flags: persona, transcript, score, chips and summary stay until the
      next Start click replaces them. */
  lemma RestartKeepsConversation(s: Session, env: Env)
    requires Enabled(s, Restart)
    ensures var t := Apply(s, Restart, env);
      && SceneOf(t) == Welcome
      && t.selectedProfile == s.selectedProfile
      && t.messages == s.messages && t.leadScore == s.leadScore
      && t.currentSuggestions == s.currentSuggestions && t.summaryData == s.summaryData
  {
  }

  /** A failed call (no client, or the service raised) stores a score of "0"
      and no chips, and the reply text says what went wrong. With no chip the
      chip row cannot be drawn, so the chat stalls from the next render on. */
  lemma FailedTurnStallsChat(s: Session, utterance: string, env: Env, ev: Event)
    requires ChatOpen(s)
    requires !HasClient(env.config) || env.generate(TurnRequest(s, utterance)).Err?
    ensures var t := UserTurn(s, utterance, env);
      && t.leadScore == "0"
      && t.currentSuggestions == []
      && t.activePanel == Some(Agent)
      && !ChatOpen(t)
      && (Enabled(t, ev) <==> ev == ClosePanel)
  {
    var r := GetGeminiResponse(env.config, utterance, s.selectedProfile.value,
                               s.messages + [Message("user", utterance)], env.generate);
    assert r.score == "0" && r.chips == [];
    BrokenPanelStallsChat(UserTurn(s, utterance, env), ev);
  }

  /** After a Start click, opening the agent panel shows a usable chat with
      a red badge at 0 and no upgrade offer. */
  lemma StartOpensChat(s: Session, i: nat, env: Env)
    requires Enabled(s, Start(i)) && s.activePanel != Some(Agent)
    ensures var t := Apply(Apply(s, Start(i), env), ToggleAgent, env);
      && ChatOpen(t)
      && IntValue(t.leadScore) == 0
      && ScoreColor(IntValue(t.leadScore)) == Red
      && !Enabled(t, Exit(Upgrade))
  {
    var u := Apply(s, Start(i), env);
    ZeroIsAnInteger(u.leadScore);
    assert AgentPanelDraws(u);
    AgentIconOpensPanel(u, env);
    ZeroScoreChatOpens(u.(activePanel := Some(Agent)));
  }

  /** With the agent panel closed and the strip drawn, the agent icon opens it. */
  lemma AgentIconOpensPanel(u: Session, env: Env)
    requires SceneOf(u) == Workspace && u.selectedProfile.Some? && u.activePanel != Some(Agent)
    ensures Enabled(u, ToggleAgent)
    ensures Apply(u, ToggleAgent, env) == u.(activePanel := Some(Agent))
  {
  }

  /** A fully drawn agent panel on a score of 0 has a red badge and no
      upgrade button. */
  lemma ZeroScoreChatOpens(t: Session)
    requires SceneOf(t) == Workspace && t.selectedProfile.Some? && t.activePanel == Some(Agent)
    requires AgentPanelDraws(t) && IntValue(t.leadScore) == 0
    ensures ChatOpen(t)
    ensures ScoreColor(IntValue(t.leadScore)) == Red
    ensures !Enabled(t, Exit(Upgrade))
  {
  }

  /** `int("0")` is 0. */
  lemma ZeroIsAnInteger(score: string)
    requires score == "0"
    ensures IsIntLiteral(score) && IntValue(score) == 0
  {
    assert |score| == 1 && score[0] == '0';
    assert score[..0] == [] && score[0..1] == score && score[1..] == [];
    assert IsStripped(score);
    assert StripsTo(score, 0, score);
    StripUnique(score, 0, score);
    assert IsDigitRun(score);
    assert DigitsValue(score) == DigitsValue(score[..0]) * 10;
  }

  /** When the service answers with a score field that `int()` rejects, the
      turn stores that score with the agent panel still open. */
  lemma UncheckedScoreReachesBadge(s: Session, utterance: string, env: Env)
    requires ChatOpen(s)
    requires HasClient(env.config)
    requires env.generate(TurnRequest(s, utterance)).Ok?
    requires !IsIntLiteral(ParseReply(env.generate(TurnRequest(s, utterance)).text).score)
    ensures var t := UserTurn(s, utterance, env);
      && SceneOf(t) == Workspace && t.selectedProfile.Some? && t.activePanel == Some(Agent)
      && !IsIntLiteral(t.leadScore)
  {
    var r := GetGeminiResponse(env.config, utterance, s.selectedProfile.value,
                               s.messages + [Message("user", utterance)], env.generate);
    assert r == ParseReply(env.generate(TurnRequest(s, utterance)).text);
  }

  /** A session whose agent panel cannot be drawn (a score `int()` rejects,
      or no chip) is stuck: the only event left is closing the panel. */
  lemma BrokenPanelStallsChat(t: Session, ev: Event)
    requires SceneOf(t) == Workspace && t.selectedProfile.Some? && t.activePanel == Some(Agent)
    requires !AgentPanelDraws(t)
    ensures !ChatOpen(t)
    ensures Enabled(t, ev) <==> ev == ClosePanel
  {
  }

  /** Closing the broken agent panel and reopening it gives the same broken
      panel back. */
  lemma ReopenedPanelStaysBroken(t: Session, env: Env)
    requires SceneOf(t) == Workspace && t.selectedProfile.Some? && t.activePanel == Some(Agent)
    requires !AgentPanelDraws(t)
    ensures Enabled(t, ClosePanel)
    ensures Enabled(Apply(t, ClosePanel, env), ToggleAgent)
    ensures Apply(Apply(t, ClosePanel, env), ToggleAgent, env) == t
  {
    var u := Apply(t, ClosePanel, env);
    assert u == t.(activePanel := None);
    assert StripShown(u);
  }
}

=== FILE: logic.dfy ===
/**
  The backend of the sales-agent demo (logic.py): persona generation, prompt
  assembly for the generative service, and the parser that turns the
  service's raw `reply ||| score ||| chip | chip` text into the
  `(text_response, lead_score, list_of_suggestions)` tuple the page shows.

  The service itself is not modelled: a call is the function parameter
  `generate`, whose result is the response text or the message of the
  exception the call raised.
 */
module Logic {
  import opened Wrappers
  import opened PyStrings

  // ---------------------------------------------------------------------------
  // Data

  /** An entry of the chat transcript kept by the page; `role` is "user" or "assistant". */
  datatype Message = Message(role: string, content: string)

  /** An entry of the request sent to the service; `role` is "user" or "model". */
  datatype Content = Content(role: string, text: string)

  /** A generated micro-SMB persona. */
  datatype Profile = Profile(
    name: string,
    industry: string,
    size: string,
    painPointTitle: string,
    painPointDesc: string,
    currentSku: string,
    goal: string)

  datatype PainPoint = PainPoint(title: string, desc: string)

  /** `(text_response, lead_score, list_of_suggestions)`: the score stays a string. */
  datatype Reply = Reply(text: string, score: string, chips: seq<string>)

  /** What one call to the generative service yields: the response text, or
      the message of the exception it raised. */
  datatype GenResult = Ok(text: string) | Err(msg: string)

  /** The environment read once at start-up: the API key, when set. */
  datatype Config = Config(apiKey: Option<string>)

  /** A client is built only for a non-empty key. */
  predicate HasClient(config: Config)
  {
    config.apiKey.Some? && config.apiKey.value != ""
  }

  // ---------------------------------------------------------------------------
  // Persona generation

  const Industries: seq<string> :=
    ["Freelance Graphix", "Corner Bakery", "Mobile Car Wash", "Family Law Firm", "Solo Dentist", "IT Fix-it Shop"]

  const Sizes: seq<string> :=
    ["Solopreneur (1 seat)", "Partnership (2 seats)", "Tiny Team (3 seats)", "Family Biz (5 seats)"]

  const PainPoints: seq<PainPoint> := [
    PainPoint("Storage Full", "Heavy Drive usage, hitting 30GB limit. Cannot upload new client videos."),
    PainPoint("Meeting Limits", "Webinars limited to 100 people. Need higher capacity for town halls."),
    PainPoint("Professionalism", "Using @gmail.com is hurting brand trust. Wants custom domain."),
    PainPoint("Security", "Worried about ex-employees retaining access to files.")
  ]

  const BusinessStarter := "Business Starter"
  const PersonalGmail := "Personal Gmail"

  /** The current product tier: any size mentioning "seats" is on Business
      Starter, anything else on Personal Gmail. */
  function SkuFor(size: string): (sku: string)
    ensures sku == BusinessStarter <==> Contains(size, "seats")
    ensures sku == PersonalGmail <==> !Contains(size, "seats")
  {
    if Contains(size, "seats") then BusinessStarter else PersonalGmail
  }

  lemma SeatsSizeSku(prefix: string, size: string)
    requires size == prefix + "seats)"
    ensures SkuFor(size) == BusinessStarter
  {
    assert OccursAt(size, "seats", |prefix|);
  }

  lemma SingleSeatSku(size: string)
    requires size == "Solopreneur (1 seat)"
    ensures SkuFor(size) == PersonalGmail
  {
    assert size == "Solopreneur (1 " + "seat)";
    ContainsSkipsPrefix("Solopreneur (1 ", "seat)", "seats");
    assert "seat)"[..5][4] != "seats"[4];
  }

  /** Of the four persona sizes only the single-seat one stays on Personal
      Gmail: "seat" does not contain "seats". */
  lemma SkuOfSize(size: string)
    requires size in Sizes
    ensures SkuFor(size) == (if size == "Solopreneur (1 seat)" then PersonalGmail else BusinessStarter)
  {
    if size == "Solopreneur (1 seat)" {
      SingleSeatSku(size);
    } else if size == "Partnership (2 seats)" {
      SeatsSizeSku("Partnership (2 ", size);
    } else if size == "Tiny Team (3 seats)" {
      SeatsSizeSku("Tiny Team (3 ", size);
    } else {
      SeatsSizeSku("Family Biz (5 ", size);
    }
  }

  /** One generated persona. */
  function MakeProfile(industry: string, size: string, pain: PainPoint): Profile
  {
    Profile(
      name := industry,
      industry := industry,
      size := size,
      painPointTitle := pain.title,
      painPointDesc := pain.desc,
      currentSku := SkuFor(size),
      goal := "Fix " + Lower(pain.title) + " issues and scale business.")
  }

  lemma IndustriesDistinct()
    ensures forall j, k :: 0 <= j < k < |Industries| ==> Industries[j] != Industries[k]
  {
  }

  /** Three personas. The random draws are inputs: `industryPicks` are the
      positions `random.sample` takes (three distinct ones), `sizePicks` and
      `painPicks` what each `random.choice` returns. */
  method GenerateProfiles(industryPicks: seq<nat>, sizePicks: seq<nat>, painPicks: seq<nat>)
      returns (profiles: seq<Profile>)
    requires |industryPicks| == 3 && |sizePicks| == 3 && |painPicks| == 3
    requires forall k :: 0 <= k < 3 ==> industryPicks[k] < |Industries|
    requires forall j, k :: 0 <= j < k < 3 ==> industryPicks[j] != industryPicks[k]
    requires forall k :: 0 <= k < 3 ==> sizePicks[k] < |Sizes| && painPicks[k] < |PainPoints|
    ensures |profiles| == 3
    ensures forall j, k :: 0 <= j < k < 3 ==> profiles[j].industry != profiles[k].industry
    ensures forall k :: 0 <= k < 3 ==>
      && profiles[k].industry == Industries[industryPicks[k]]
      && profiles[k].name == profiles[k].industry
      && profiles[k].size == Sizes[sizePicks[k]]
      && profiles[k].painPointTitle == PainPoints[painPicks[k]].title
      && profiles[k].painPointDesc == PainPoints[painPicks[k]].desc
      && profiles[k].currentSku == SkuFor(profiles[k].size)
      && profiles[k].goal == "Fix " + Lower(profiles[k].painPointTitle) + " issues and scale business."
  {
    profiles := [];
    var k := 0;
    while k < 3
      invariant 0 <= k <= 3 && |profiles| == k
      invariant forall m :: 0 <= m < k ==>
        && profiles[m].industry == Industries[industryPicks[m]]
        && profiles[m].name == profiles[m].industry
        && profiles[m].size == Sizes[sizePicks[m]]
        && profiles[m].painPointTitle == PainPoints[painPicks[m]].title
        && profiles[m].painPointDesc == PainPoints[painPicks[m]].desc
        && profiles[m].currentSku == SkuFor(profiles[m].size)
        && profiles[m].goal == "Fix " + Lower(profiles[m].painPointTitle) + " issues and scale business."
    {
      var industry := Industries[industryPicks[k]];
      var size := Sizes[sizePicks[k]];
      var pain := PainPoints[painPicks[k]];
      profiles := profiles + [MakeProfile(industry, size, pain)];
      k := k + 1;
    }
    IndustriesDistinct();
  }

  // ---------------------------------------------------------------------------
  // Prompt assembly

  const PromptHead := "\n    You are an elite Google Workspace Sales Rep. \n    CONTEXT: "

  const PromptBlank := "\n    \n"
  const PromptStyle := "    YOUR STYLE (The \"Challenger Sale\" approach):\n"
  const PromptRule1 := "    1. BE CONCISE. 1-2 sentences max.\n"
  const PromptRule2 := "    2. VALIDATE & PIVOT. Acknowledge the pain, then bridge to solution. \n"
  const PromptRule3 := "    3. DRIVE THE SALE. Pivot to 'Business Standard' ($12/seat).\n"
  const PromptFormat := "    OUTPUT FORMAT:\n"
  const PromptFormatLine := "    Response text ||| Lead Score (0-100) ||| Suggestion1 | Suggestion2 | Suggestion3\n"
  const PromptChipRule := "    The 3 Suggestions should be short (2-4 words) possible replies the USER might say next.\n"
  const PromptExample := "    Example:\n"
  const PromptExampleReply := "    " + ExampleText + " ||| 40 ||| " + ExampleChip1 + " | " + ExampleChip2 + " | " + ExampleChip3 + "\n    "

  /** The example answer the prompt shows, in its three fields. */
  const ExampleAnswer := FormatAnswer(ExampleText, "40", ExampleChip1, ExampleChip2, ExampleChip3)
  /** Written in short pieces: the verifier cannot see inside one long
      string literal, but it can inside each piece. */
  const ExampleText := "That sounds tough. " + "Most agencies " + "upgrade to " + "Standard for " + "2TB storage."
  const ExampleChip1 := "How much is it?"
  const ExampleChip2 := "I don't have budget"
  const ExampleChip3 := "Tell me more"
  const PromptEmptyLine := "    \n"
  const PromptTail := PromptBlank + PromptStyle + PromptRule1 + PromptRule2 + PromptRule3 + PromptEmptyLine
    + PromptFormat + PromptFormatLine + PromptEmptyLine + PromptChipRule + PromptExample + PromptExampleReply

  /** `head`, then the persona's industry, size and pain-point description
      separated by " | " and " | Pain: ", then `tail`. */
  function Framed(head: string, industry: string, size: string, desc: string, tail: string): string
  {
    head + industry + " | " + size + " | Pain: " + desc + tail
  }

  /** Where the framing puts each part: `head` first, the industry right
      after it, the description just before `tail`, and `tail` last. */
  lemma FramedShape(head: string, industry: string, size: string, desc: string, tail: string)
    ensures var r := Framed(head, industry, size, desc, tail);
      && StartsWith(r, head)
      && OccursAt(r, industry, |head|)
      && OccursAt(r, desc, |r| - |tail| - |desc|)
      && |r| >= |tail| && r[|r| - |tail|..] == tail
  {
    var r := Framed(head, industry, size, desc, tail);
    assert r[|head|..|head| + |industry|] == industry;
    assert r[|r| - |tail| - |desc|..|r| - |tail|] == desc;
  }

  /** The persona-specific instructions: the fixed framing around the
      profile's industry, size and pain-point description. */
  function SystemPrompt(profile: Profile): string
  {
    Framed(PromptHead, profile.industry, profile.size, profile.painPointDesc, PromptTail)
  }

  /** The system prompt starts with the fixed introduction, names the
      persona's industry right after "CONTEXT: ", puts the pain-point
      description just before the fixed instructions, and ends with them. */
  lemma SystemPromptShape(profile: Profile)
    ensures var prompt := SystemPrompt(profile);
      && StartsWith(prompt, PromptHead)
      && OccursAt(prompt, profile.industry, |PromptHead|)
      && OccursAt(prompt, profile.painPointDesc, |prompt| - |PromptTail| - |profile.painPointDesc|)
      && prompt[|prompt| - |PromptTail|..] == PromptTail
  {
    FramedShape(PromptHead, profile.industry, profile.size, profile.painPointDesc, PromptTail);
  }

  /** The service's role for a transcript role: "assistant" becomes "model",
      every other role "user". */
  function WireRole(role: string): string
  {
    if role == "assistant" then "model" else "user"
  }

  /** The transcript in the service's vocabulary, entry by entry. */
  function HistoryContents(history: seq<Message>): (contents: seq<Content>)
    ensures |contents| == |history|
    ensures forall k :: 0 <= k < |history| ==>
      contents[k] == Content(WireRole(history[k].role), history[k].content)
  {
    if history == [] then []
    else
      var last := history[|history| - 1];
      HistoryContents(history[..|history| - 1]) + [Content(WireRole(last.role), last.content)]
  }

  /** A request around any system prompt: the prompt as a "user" entry, the
      transcript in order, then the new utterance as a "user" entry. */
  function Request(system: string, history: seq<Message>, userInput: string): (contents: seq<Content>)
    ensures |contents| == |history| + 2
    ensures contents[0] == Content("user", system)
    ensures forall k :: 0 <= k < |history| ==>
      contents[k + 1] == Content(WireRole(history[k].role), history[k].content)
    ensures contents[|contents| - 1] == Content("user", userInput)
    ensures forall k :: 0 <= k < |contents| ==> contents[k].role in {"user", "model"}
  {
    [Content("user", system)] + HistoryContents(history) + [Content("user", userInput)]
  }

  /** The request `get_gemini_response` sends for a persona. */
  function AssembleContents(profile: Profile, history: seq<Message>, userInput: string): (contents: seq<Content>)
    ensures |contents| == |history| + 2
    ensures contents[0] == Content("user", SystemPrompt(profile))
    ensures forall k :: 0 <= k < |history| ==>
      contents[k + 1] == Content(WireRole(history[k].role), history[k].content)
    ensures contents[|contents| - 1] == Content("user", userInput)
    ensures forall k :: 0 <= k < |contents| ==> contents[k].role in {"user", "model"}
  {
    Request(SystemPrompt(profile), history, userInput)
  }

  // ---------------------------------------------------------------------------
  // Reply parsing

  const Delimiter := "|||"
  const DefaultScore := "50"
  const DefaultChips: seq<string> := ["Tell me more", "Is it expensive?", "Not interested"]

  /** `[s.strip() for s in xs]`. */
  function StripEach(xs: seq<string>): (ys: seq<string>)
    ensures |ys| == |xs|
    ensures forall k :: 0 <= k < |xs| ==> ys[k] == Strip(xs[k])
  {
    seq(|xs|, k requires 0 <= k < |xs| => Strip(xs[k]))
  }

  /** The chips of a third field: each `|`-separated piece, stripped. */
  function ChipsOf(field: string): seq<string>
  {
    StripEach(Split(field, "|"))
  }

  /** The body of the `try` once the service has answered `text`. The result
      is decided by how many `|||`-separated fields `text` has: one field
      leaves `text` as it is with the default score and chips; two fields
      give stripped reply and score with the default chips; three or more
      take the chips from the third field and drop the rest. */
  function ParseReply(text: string): (r: Reply)
    ensures var parts := Split(text, Delimiter);
      && (|parts| == 1 ==> r == Reply(text, DefaultScore, DefaultChips))
      && (|parts| == 2 ==> r == Reply(Strip(parts[0]), Strip(parts[1]), DefaultChips))
      && (|parts| >= 3 ==> r == Reply(Strip(parts[0]), Strip(parts[1]), ChipsOf(parts[2])))
  {
    SplitHasSecondFieldIffContains(text, Delimiter);
    var replyText, score, suggestions := text, DefaultScore, DefaultChips;
    if Contains(text, Delimiter) then
      var parts := Split(text, Delimiter);
      if |parts| >= 3 then
        Reply(Strip(parts[0]), Strip(parts[1]), ChipsOf(parts[2]))
      else if |parts| == 2 then
        Reply(Strip(parts[0]), Strip(parts[1]), suggestions)
      else
        Reply(replyText, score, suggestions)
    else
      Reply(replyText, score, suggestions)
  }

  /** Without the delimiter the raw text is the reply, not even stripped, and
      the default score and chips apply. */
  lemma ParseReplyWithoutDelimiter(text: string)
    requires !Contains(text, Delimiter)
    ensures ParseReply(text) == Reply(text, "50", ["Tell me more", "Is it expensive?", "Not interested"])
  {
    SplitHasSecondFieldIffContains(text, Delimiter);
  }

  /** With the delimiter present there are at least two fields, so the reply
      and score always come from the stripped first two fields. */
  lemma ParseReplyWithDelimiter(text: string)
    requires Contains(text, Delimiter)
    ensures var parts := Split(text, Delimiter);
      && |parts| >= 2
      && ParseReply(text).text == Strip(parts[0])
      && ParseReply(text).score == Strip(parts[1])
      && IsStripped(ParseReply(text).text) && IsStripped(ParseReply(text).score)
  {
    SplitHasSecondFieldIffContains(text, Delimiter);
  }

  /** In the three-field case there is one chip per `|` in the third field
      plus one: the chip list is neither capped at three nor deduplicated,
      and every chip is stripped. */
  lemma ParseReplyChipCount(text: string)
    requires |Split(text, Delimiter)| >= 3
    ensures var field := Split(text, Delimiter)[2];
      && |ParseReply(text).chips| == CountChar(field, '|') + 1
      && forall k :: 0 <= k < |ParseReply(text).chips| ==> IsStripped(ParseReply(text).chips[k])
  {
    SplitOnCharCount(Split(text, Delimiter)[2], '|');
  }

  /** The parser never returns an empty chip list. */
  lemma ParseReplyAlwaysHasChips(text: string)
    ensures |ParseReply(text).chips| >= 1
  {
    var parts := Split(text, Delimiter);
    if |parts| >= 3 {
      assert |Split(parts[2], "|")| >= 1;
    }
  }

  /** Exactly two fields: reply and score are stripped, and the default chips
      stay. */
  lemma ParseReplyTwoFields(reply: string, score: string)
    requires '|' !in reply && '|' !in score
    ensures ParseReply(reply + Delimiter + score) == Reply(Strip(reply), Strip(score), DefaultChips)
  {
    SplitAfterFirstField(reply, Delimiter, score);
    SplitWithoutSeparatorStart(score, Delimiter);
  }

  /** Three or more fields: the chips come from the third field alone and
      whatever follows it is dropped. */
  lemma ParseReplyThreeFields(reply: string, score: string, rest: string)
    requires '|' !in reply && '|' !in score
    ensures ParseReply(reply + Delimiter + score + Delimiter + rest)
      == Reply(Strip(reply), Strip(score), ChipsOf(Split(rest, Delimiter)[0]))
  {
    assert reply + Delimiter + score + Delimiter + rest == reply + Delimiter + (score + Delimiter + rest);
    SplitAfterFirstField(reply, Delimiter, score + Delimiter + rest);
    SplitAfterFirstField(score, Delimiter, rest);
  }

  /** A chip field with one `|` gives two stripped chips. */
  lemma ChipsOfTwo(first: string, second: string)
    requires '|' !in first && '|' !in second
    ensures ChipsOf(first + "|" + second) == [Strip(first), Strip(second)]
  {
    SplitAfterFirstField(first, "|", second);
    SplitWithoutSeparatorStart(second, "|");
    var parts := Split(first + "|" + second, "|");
    assert parts == [first, second];
    var chips := StripEach(parts);
    assert |chips| == 2 && chips[0] == Strip(first) && chips[1] == Strip(second);
  }

  /** A chip field with two `|` gives three stripped chips. */
  lemma ChipsOfThree(first: string, second: string, third: string)
    requires '|' !in first && '|' !in second && '|' !in third
    ensures ChipsOf(first + "|" + second + "|" + third) == [Strip(first), Strip(second), Strip(third)]
  {
    SplitThreeBars(first, second, third);
    StripEachThree(first, second, third);
  }

  lemma StripEachThree(first: string, second: string, third: string)
    ensures StripEach([first, second, third]) == [Strip(first), Strip(second), Strip(third)]
  {
    var xs := [first, second, third];
    var chips := StripEach(xs);
    assert xs[0] == first && xs[1] == second && xs[2] == third;
    ThreeElements(chips, Strip(first), Strip(second), Strip(third));
  }

  lemma ThreeElements(ys: seq<string>, a: string, b: string, c: string)
    requires |ys| == 3 && ys[0] == a && ys[1] == b && ys[2] == c
    ensures ys == [a, b, c]
  {
  }

  lemma SplitThreeBars(first: string, second: string, third: string)
    requires '|' !in first && '|' !in second && '|' !in third
    ensures Split(first + "|" + second + "|" + third, "|") == [first, second, third]
  {
    assert first + "|" + second + "|" + third == first + "|" + (second + "|" + third);
    SplitAfterFirstField(first, "|", second + "|" + third);
    SplitAfterFirstField(second, "|", third);
    SplitWithoutSeparatorStart(third, "|");
  }

  /** A chip field whose bars are single never holds the delimiter, so it
      stays one `|||`-field. */
  lemma SingleBarsNoDelimiter(first: string, second: string, third: string)
    requires '|' !in first && '|' !in second && '|' !in third && second != []
    ensures !Contains(first + "|" + second + "|" + third, Delimiter)
  {
    var field := first + "|" + second + "|" + third;
    forall k | 0 <= k < |field| && k != |first| && k != |first| + |second| + 1
      ensures field[k] != '|'
    {
      if k < |first| {
        assert field[k] == first[k];
      } else if |first| < k < |first| + |second| + 1 {
        assert field[k] == second[k - |first| - 1];
      } else {
        assert field[k] == third[k - |first| - |second| - 2];
      }
    }
    forall i | 0 <= i <= |field| - |Delimiter|
      ensures !OccursAt(field, Delimiter, i)
    {
      assert field[i..i + 3][0] == field[i] && field[i..i + 3][1] == field[i + 1];
    }
  }

  /** An answer in the layout the prompt asks for: reply text, score and
      three suggestions, joined by " ||| " and " | ". */
  function FormatAnswer(text: string, score: string, first: string, second: string, third: string): string
  {
    text + " " + Delimiter + " " + score + " " + Delimiter + ChipField(first, second, third)
  }

  function ChipField(first: string, second: string, third: string): string
  {
    " " + first + " | " + second + " | " + third
  }

  /** An answer in the requested layout parses back to its parts, as long
      as no part holds a bar or has whitespace at either end. */
  lemma FormatAnswerParses(text: string, score: string, first: string, second: string, third: string)
    requires '|' !in text && '|' !in score && '|' !in first && '|' !in second && '|' !in third
    requires IsStripped(text) && IsStripped(score)
    requires IsStripped(first) && IsStripped(second) && IsStripped(third)
    ensures ParseReply(FormatAnswer(text, score, first, second, third)) == Reply(text, score, [first, second, third])
  {
    var field := ChipField(first, second, third);
    FormatFields(text, score, field);
    FormatChips(first, second, third);
  }

  /** The text and score fields of the requested layout come back whole,
      and the chips come from the third field. */
  lemma FormatFields(text: string, score: string, rest: string)
    requires '|' !in text && '|' !in score
    requires IsStripped(text) && IsStripped(score)
    ensures ParseReply(text + " " + Delimiter + " " + score + " " + Delimiter + rest)
      == Reply(text, score, ChipsOf(Split(rest, Delimiter)[0]))
  {
    FormatShape(text, score, rest);
    ParseReplyThreeFields(text + " ", " " + score + " ", rest);
    FormatStrips(text, score);
  }

  lemma FormatShape(text: string, score: string, rest: string)
    ensures text + " " + Delimiter + " " + score + " " + Delimiter + rest
      == (text + " ") + Delimiter + (" " + score + " ") + Delimiter + rest
  {
  }

  lemma FormatStrips(text: string, score: string)
    requires IsStripped(text) && IsStripped(score)
    ensures Strip(text + " ") == text && Strip(" " + score + " ") == score
  {
    OneSpace();
    StripOfRightPadded(text, " ");
    StripOfPadded(" ", score, " ");
  }

  /** With no whitespace at its outer ends, the answer is its own strip. */
  lemma FormatAnswerStripped(text: string, score: string, first: string, second: string, third: string)
    requires text != [] && !IsSpace(text[0])
    requires third != [] && !IsSpace(third[|third| - 1])
    ensures IsStripped(FormatAnswer(text, score, first, second, third))
  {
    var a := FormatAnswer(text, score, first, second, third);
    assert a[0] == text[0];
    assert a[|a| - 1] == third[|third| - 1];
  }

  /** The chip field of the requested layout is one `|||`-field and gives
      the three suggestions. */
  lemma FormatChips(first: string, second: string, third: string)
    requires '|' !in first && '|' !in second && '|' !in third
    requires IsStripped(first) && IsStripped(second) && IsStripped(third)
    ensures Split(ChipField(first, second, third), Delimiter) == [ChipField(first, second, third)]
    ensures ChipsOf(ChipField(first, second, third)) == [first, second, third]
  {
    var field := ChipField(first, second, third);
    var a, b, c := " " + first + " ", " " + second + " ", " " + third;
    ChipFieldShape(first, second, third);
    SingleBarsNoDelimiter(a, b, c);
    SplitWithoutSeparator(field, Delimiter);
    ChipsOfThree(a, b, c);
    ChipStrips(first, second, third);
  }

  lemma ChipFieldShape(first: string, second: string, third: string)
    ensures ChipField(first, second, third)
      == (" " + first + " ") + "|" + (" " + second + " ") + "|" + (" " + third)
  {
  }

  lemma ChipStrips(first: string, second: string, third: string)
    requires IsStripped(first) && IsStripped(second) && IsStripped(third)
    ensures Strip(" " + first + " ") == first && Strip(" " + second + " ") == second
    ensures Strip(" " + third) == third
  {
    OneSpace();
    StripOfPadded(" ", first, " ");
    StripOfPadded(" ", second, " ");
    StripOfLeftPadded(" ", third);
  }

  // ---------------------------------------------------------------------------
  // The whole call

  const NoKeyText := "Error: API Key not found."
  const ConnectionErrorPrefix := "Connection Error: "

  /** `get_gemini_response(user_input, profile, chat_history)`, with the
      service call `generate` applied to the assembled request. */
  function GetGeminiResponse(
    config: Config, userInput: string, profile: Profile, history: seq<Message>,
    generate: seq<Content> -> GenResult): (r: Reply)
    ensures !HasClient(config) ==> r == Reply("Error: API Key not found.", "0", [])
    ensures HasClient(config) && generate(AssembleContents(profile, history, userInput)).Err? ==>
      && StartsWith(r.text, "Connection Error: ")
      && r.text[|"Connection Error: "|..] == generate(AssembleContents(profile, history, userInput)).msg
      && r.score == "0" && r.chips == []
    ensures HasClient(config) && generate(AssembleContents(profile, history, userInput)).Ok? ==>
      r == ParseReply(generate(AssembleContents(profile, history, userInput)).text)
  {
    if !HasClient(config) then Reply(NoKeyText, "0", [])
    else
      match generate(AssembleContents(profile, history, userInput))
      case Ok(text) => ParseReply(text)
      case Err(msg) => Reply(ConnectionErrorPrefix + msg, "0", [])
  }

  /** The chip list comes back empty exactly when no answer was obtained:
      no client, or the call raised. */
  lemma EmptyChipsIffFailure(
    config: Config, userInput: string, profile: Profile, history: seq<Message>,
    generate: seq<Content> -> GenResult)
    ensures GetGeminiResponse(config, userInput, profile, history, generate).chips == []
      <==> (!HasClient(config) || generate(AssembleContents(profile, history, userInput)).Err?)
  {
    if HasClient(config) {
      match generate(AssembleContents(profile, history, userInput))
      case Ok(text) => ParseReplyAlwaysHasChips(text);
      case Err(_) =>
    }
  }

  // ---------------------------------------------------------------------------
  // Conversation summary

  /** What the summary call yields: the decoded JSON object, or failure
      (the call or the decoding raised). */
  datatype SummaryResult = Parsed(fields: map<string, string>) | Failed

  const ErrorSummary: map<string, string> :=
    map["Summary" := "Error", "Track" := "Error", "Next Step" := "Error", "Tactics" := "N/A"]

  /** `summarize_conversation`: empty without a client, a fixed error record
      when the call fails, otherwise the decoded object. */
  function SummarizeConversation(config: Config, result: SummaryResult): (summary: map<string, string>)
    ensures !HasClient(config) ==> summary == map[]
    ensures HasClient(config) && result.Failed? ==>
      && summary.Keys == {"Summary", "Track", "Next Step", "Tactics"}
      && summary["Track"] == "Error"
    ensures HasClient(config) && result.Parsed? ==> summary == result.fields
  {
    if !HasClient(config) then map[]
    else
      match result
      case Parsed(fields) => fields
      case Failed => ErrorSummary
  }
}

=== FILE: logic_examples.dfy ===
/**
  Worked inputs for the reply parser of logic.py, each reduced to the general
  field lemmas of `Logic` plus the `strip()` of a few literals.
 */
module LogicExamples {
  import opened PyStrings
  import opened Logic

  /** `strip()` of printable ASCII text with plain spaces around it. */
  lemma StripLiteral(pre: string, r: string, post: string)
    requires forall k :: 0 <= k < |pre| ==> pre[k] == ' '
    requires forall k :: 0 <= k < |post| ==> post[k] == ' '
    requires r != [] && '!' <= r[0] <= '~' && '!' <= r[|r| - 1] <= '~'
    ensures Strip(pre + r + post) == r
  {
    var s := pre + r + post;
    assert s[..|pre|] == pre && s[|pre| + |r|..] == post && s[|pre|..|pre| + |r|] == r;
    assert AllSpace(s[..|pre|]);
    assert AllSpace(s[|pre| + |r|..]);
    StripUnique(s, |pre|, r);
  }

  lemma TwoFieldSplit()
    ensures ParseReply("Sure thing " + Delimiter + " 40") == Reply(Strip("Sure thing "), Strip(" 40"), DefaultChips)
  {
    ParseReplyTwoFields("Sure thing ", " 40");
  }

  lemma StripSureThing()
    ensures Strip("Sure thing ") == "Sure thing"
  {
    assert "Sure thing " == "" + "Sure thing" + " ";
    StripLiteral("", "Sure thing", " ");
  }

  lemma StripForty()
    ensures Strip(" 40") == "40" && Strip(" 40 ") == "40"
  {
    assert " 40" == " " + "40" + "";
    StripLiteral(" ", "40", "");
    assert " 40 " == " " + "40" + " ";
    StripLiteral(" ", "40", " ");
  }

  /** Two fields keep the three default chips rather than offering none. */
  lemma ParseReplyTwoFieldExample()
    ensures ParseReply("Sure thing " + Delimiter + " 40") == Reply("Sure thing", "40", ["Tell me more", "Is it expensive?", "Not interested"])
  {
    TwoFieldSplit();
    StripSureThing();
    StripForty();
  }

  /** The example line of the prompt is the example answer inside the
      prompt's indentation. */
  lemma PromptExampleLineIsAnswer()
    ensures PromptExampleReply == "    " + ExampleAnswer + "\n    "
  {
    IndentedAnswer(ExampleText, ExampleChip1, ExampleChip2, ExampleChip3);
  }

  lemma IndentedAnswer(t: string, a: string, b: string, c: string)
    ensures "    " + t + " ||| 40 ||| " + a + " | " + b + " | " + c + "\n    " == "    " + FormatAnswer(t, "40", a, b, c) + "\n    "
  {
    assert " ||| 40 ||| " == " " + Delimiter + " " + "40" + " " + Delimiter + " ";
  }

  lemma PromptExampleLineStrips()
    ensures Strip(PromptExampleReply) == ExampleAnswer
  {
    PromptExampleLineIsAnswer();
    var pre, post := "    ", "\n    ";
    forall k | 0 <= k < |pre|
      ensures SpaceAt(pre, k)
    {
    }
    forall k | 0 <= k < |post|
      ensures SpaceAt(post, k)
    {
    }
    ExampleTextPlain();
    ExampleChipsPlain();
    FormatAnswerStripped(ExampleText, "40", ExampleChip1, ExampleChip2, ExampleChip3);
    StripOfPadded(pre, ExampleAnswer, post);
  }

  /** The example the prompt shows, stripped of its indentation, parses to
      its text, the score "40" and its three chips. */
  lemma ParseReplyPromptExample()
    ensures Strip(PromptExampleReply) == ExampleAnswer
    ensures ParseReply(ExampleAnswer) == Reply(ExampleText, "40", [ExampleChip1, ExampleChip2, ExampleChip3])
  {
    PromptExampleLineStrips();
    ExampleTextPlain();
    ExampleChipsPlain();
    assert IsStripped("40") && '|' !in "40";
    FormatAnswerParses(ExampleText, "40", ExampleChip1, ExampleChip2, ExampleChip3);
  }

  lemma ExampleTextPlain()
    ensures '|' !in ExampleText && IsStripped(ExampleText) && ExampleText != [] && !IsSpace(ExampleText[0])
  {
    assert ExampleText[0] == "That sounds tough. "[0];
    assert ExampleText[|ExampleText| - 1] == "2TB storage."[11];
  }

  lemma ExampleChipsPlain()
    ensures '|' !in ExampleChip1 && '|' !in ExampleChip2 && '|' !in ExampleChip3
    ensures IsStripped(ExampleChip1) && IsStripped(ExampleChip2) && IsStripped(ExampleChip3)
    ensures ExampleChip3 != [] && !IsSpace(ExampleChip3[|ExampleChip3| - 1])
  {
  }

  lemma UncheckedScoreSplit()
    ensures ParseReply("Sure " + Delimiter + " high " + Delimiter + " Yes").score == Strip(" high ")
  {
    ParseReplyThreeFields("Sure ", " high ", " Yes");
  }

  lemma HighIsNotAnInteger()
    ensures Strip(" high ") == "high"
    ensures !IsIntLiteral("high")
  {
    assert " high " == " " + "high" + " ";
    StripLiteral(" ", "high", " ");
    assert "high" == "" + "high" + "";
    StripLiteral("", "high", "");
  }

  /** The score field is passed on whatever it holds: the parser can return a
      score that `int()` rejects. */
  lemma ParseReplyScoreUnchecked()
    ensures ParseReply("Sure " + Delimiter + " high " + Delimiter + " Yes").score == "high"
    ensures !IsIntLiteral(ParseReply("Sure " + Delimiter + " high " + Delimiter + " Yes").score)
  {
    UncheckedScoreSplit();
    HighIsNotAnInteger();
  }

  /** Four bars hold two overlapping occurrences of the delimiter; the split
      takes the leftmost one, so the reply is empty and the score is "|". */
  lemma OverlappingDelimiterCutsLeft()
    ensures Split(Delimiter + "|", Delimiter) == ["", "|"]
    ensures ParseReply(Delimiter + "|") == Reply("", "|", DefaultChips)
  {
    var s := Delimiter + "|";
    assert StartsWith(s, Delimiter);
    assert s[|Delimiter|..] == "|";
    assert Split("|", Delimiter) == ["|"];
    assert Strip("") == "";
    assert "|" == "" + "|" + "";
    StripLiteral("", "|", "");
  }
}

=== FILE: py_strings.dfy ===
/**
  The few pieces of Python's `str` that the application relies on, defined
  from scratch over `seq<char>`: `sub in s`, `s.split(sep)`, `s.strip()`,
  `s.lower()` on ASCII letters, and the literal syntax `int(s)` accepts.
  Each definition comes with an independent characterisation and a lemma
  connecting the two.
 */
module PyStrings {

  // ---------------------------------------------------------------------------
  // Whitespace and strip()

  /** The characters for which Python's `str.isspace()` holds; `str.strip()`
      with no argument removes exactly these from both ends. */
  predicate IsSpace(c: char)
  {
    || ('\t' <= c <= '\r')              // \t \n \x0b \x0c \r
    || ('\U{1C}' <= c <= ' ')           // file/group/record/unit separators and space
    || c == '\U{85}' || c == '\U{A0}' || c == '\U{1680}'
    || ('\U{2000}' <= c <= '\U{200A}')
    || c == '\U{2028}' || c == '\U{2029}' || c == '\U{202F}' || c == '\U{205F}'
    || c == '\U{3000}'
  }

  /** Position `k` of `s` holds whitespace. */
  predicate SpaceAt(s: string, k: int)
    requires 0 <= k < |s|
  {
    IsSpace(s[k])
  }

  ghost predicate AllSpace(s: string)
  {
    forall k :: 0 <= k < |s| ==> SpaceAt(s, k)
  }

  /** Neither end of `s` is whitespace: what `strip()` leaves behind. */
  predicate IsStripped(s: string)
  {
    s == [] || (!IsSpace(s[0]) && !IsSpace(s[|s| - 1]))
  }

  /** A whitespace character in front of a space-led suffix split extends the
      whitespace prefix by one. */
  lemma SpacePrefixExtends(s: string, r: string)
    requires |s| > 0 && IsSpace(s[0])
    requires |r| <= |s| - 1 && r == s[1..][|s| - 1 - |r|..] && AllSpace(s[1..][..|s| - 1 - |r|])
    ensures r == s[|s| - |r|..] && AllSpace(s[..|s| - |r|])
  {
    assert s[1..][|s| - 1 - |r|..] == s[|s| - |r|..];
    var n := |s| - |r|;
    forall k | 0 <= k < n ensures SpaceAt(s[..n], k) {
      if k > 0 {
        assert SpaceAt(s[1..][..n - 1], k - 1);
        assert s[1..][..n - 1][k - 1] == s[..n][k];
      }
    }
  }

  /** The mirror image of `SpacePrefixExtends` at the end of `s`. */
  lemma SpaceSuffixExtends(s: string, r: string)
    requires |s| > 0 && IsSpace(s[|s| - 1])
    requires |r| <= |s| - 1 && r == s[..|s| - 1][..|r|] && AllSpace(s[..|s| - 1][|r|..])
    ensures r == s[..|r|] && AllSpace(s[|r|..])
  {
    assert s[..|s| - 1][..|r|] == s[..|r|];
    forall k | 0 <= k < |s| - |r| ensures SpaceAt(s[|r|..], k) {
      if k < |s| - 1 - |r| {
        assert SpaceAt(s[..|s| - 1][|r|..], k);
        assert s[..|s| - 1][|r|..][k] == s[|r|..][k];
      }
    }
  }

  /** `s.lstrip()`: the suffix left after dropping leading whitespace. */
  function TrimLeft(s: string): (r: string)
    ensures |r| <= |s| && r == s[|s| - |r|..]
    ensures AllSpace(s[..|s| - |r|])
    ensures r == [] || !IsSpace(r[0])
    decreases |s|
  {
    if |s| > 0 && IsSpace(s[0]) then
      var r := TrimLeft(s[1..]);
      SpacePrefixExtends(s, r);
      r
    else
      s
  }

  /** `s.rstrip()`: the prefix left after dropping trailing whitespace. */
  function TrimRight(s: string): (r: string)
    ensures |r| <= |s| && r == s[..|r|]
    ensures AllSpace(s[|r|..])
    ensures r == [] || !IsSpace(r[|r| - 1])
    decreases |s|
  {
    if |s| > 0 && IsSpace(s[|s| - 1]) then
      var r := TrimRight(s[..|s| - 1]);
      SpaceSuffixExtends(s, r);
      r
    else
      s
  }

  /** `s` consists of `r`, starting at index `i`, with only whitespace around it,
      and `r` neither starts nor ends with whitespace. */
  ghost predicate StripsTo(s: string, i: int, r: string)
  {
    && 0 <= i && i + |r| <= |s| && s[i..i + |r|] == r
    && AllSpace(s[..i]) && AllSpace(s[i + |r|..])
    && IsStripped(r)
  }

  /** `s.strip()`: the infix of `s` between its leading and trailing whitespace. */
  function Strip(s: string): (r: string)
    ensures StripsTo(s, |s| - |TrimLeft(s)|, r)
  {
    var t := TrimLeft(s);
    var r := TrimRight(t);
    InfixShape(s, t, r);
    r
  }

  /** A prefix `r` of a suffix `t` of `s`, with whitespace dropped on both
      sides and none left at either end of `r`, is what `s` strips to. */
  lemma InfixShape(s: string, t: string, r: string)
    requires |t| <= |s| && t == s[|s| - |t|..] && AllSpace(s[..|s| - |t|])
    requires t == [] || !IsSpace(t[0])
    requires |r| <= |t| && r == t[..|r|] && AllSpace(t[|r|..])
    requires r == [] || !IsSpace(r[|r| - 1])
    ensures StripsTo(s, |s| - |t|, r)
  {
    var i := |s| - |t|;
    assert r == s[i..i + |r|];
    assert s[i + |r|..] == t[|r|..];
    assert r == [] || r[0] == t[0];
  }

  lemma {:induction false} TrimLeftOfSpacePrefix(s: string, i: nat)
    requires i <= |s| && AllSpace(s[..i])
    requires i == |s| || !IsSpace(s[i])
    ensures TrimLeft(s) == s[i..]
    decreases i
  {
    if i > 0 {
      assert SpaceAt(s[..i], 0);
      assert s[..i][1..i] == s[1..i] == s[1..][..i - 1];
      AllSpaceSlice(s[..i], 1, i);
      TrimLeftOfSpacePrefix(s[1..], i - 1);
      assert s[1..][i - 1..] == s[i..];
    }
  }

  lemma {:induction false} TrimRightOfSpaceSuffix(s: string, j: nat)
    requires j <= |s| && AllSpace(s[j..])
    requires j == 0 || !IsSpace(s[j - 1])
    ensures TrimRight(s) == s[..j]
    decreases |s| - j
  {
    if j < |s| {
      assert SpaceAt(s[j..], |s| - j - 1);
      var s' := s[..|s| - 1];
      assert s'[j..] == s[j..][0..|s| - j - 1];
      AllSpaceSlice(s[j..], 0, |s| - j - 1);
      TrimRightOfSpaceSuffix(s', j);
      assert s'[..j] == s[..j];
    }
  }

  /** Every slice of an all-whitespace string is all whitespace. */
  lemma AllSpaceSlice(s: string, a: int, b: int)
    requires AllSpace(s) && 0 <= a <= b <= |s|
    ensures AllSpace(s[a..b])
  {
    forall k | 0 <= k < b - a ensures SpaceAt(s[a..b], k) {
      assert SpaceAt(s, a + k);
    }
  }

  /** Whitespace on both sides of an empty infix makes all of `s` whitespace. */
  lemma SpaceAroundNothing(s: string, i: int)
    requires 0 <= i <= |s| && AllSpace(s[..i]) && AllSpace(s[i..])
    ensures AllSpace(s)
  {
    forall k | 0 <= k < |s| ensures SpaceAt(s, k) {
      if k < i { assert SpaceAt(s[..i], k); } else { assert SpaceAt(s[i..], k - i); }
    }
  }

  /** `strip()` is determined by its characterisation: whatever `s` strips to
      is the result of `Strip`. */
  lemma StripUnique(s: string, i: int, r: string)
    requires StripsTo(s, i, r)
    ensures Strip(s) == r
  {
    if r == [] {
      SpaceAroundNothing(s, i);
      StripOfSpace(s);
    } else {
      StripOfInfix(s, i, r);
    }
  }

  /** A string of whitespace strips to nothing. */
  lemma StripOfSpace(s: string)
    requires AllSpace(s)
    ensures Strip(s) == []
  {
    assert s[..|s|] == s;
    TrimLeftOfSpacePrefix(s, |s|);
    assert TrimLeft(s) == [];
  }

  /** A non-empty infix with whitespace around it is what `s` strips to. */
  lemma StripOfInfix(s: string, i: int, r: string)
    requires StripsTo(s, i, r) && r != []
    ensures Strip(s) == r
  {
    assert s[i] == s[i..i + |r|][0] == r[0];
    TrimLeftOfSpacePrefix(s, i);
    InfixTrimRight(s, i, r);
  }

  /** Dropping the trailing whitespace after a non-empty infix leaves the infix. */
  lemma InfixTrimRight(s: string, i: int, r: string)
    requires StripsTo(s, i, r) && r != []
    ensures TrimRight(s[i..]) == r
  {
    var t := s[i..];
    assert t[|r|..] == s[i + |r|..];
    assert t[..|r|] == s[i..i + |r|];
    assert t[|r| - 1] == r[|r| - 1];
    TrimRightOfSpaceSuffix(t, |r|);
  }


  /** Stripping twice is stripping once. */
  lemma StripIdempotent(s: string)
    ensures Strip(Strip(s)) == Strip(s)
  {
    var r := Strip(s);
    assert r[0..|r|] == r && r[..0] == [] && r[|r|..] == [];
    assert StripsTo(r, 0, r);
    StripUnique(r, 0, r);
  }

  // ---------------------------------------------------------------------------
  // Substring search: `sub in s`

  predicate StartsWith(s: string, p: string)
  {
    |p| <= |s| && s[..|p|] == p
  }

  /** `sub` occurs in `s` at index `i`. */
  predicate OccursAt(s: string, sub: string, i: int)
  {
    0 <= i && i + |sub| <= |s| && s[i..i + |sub|] == sub
  }

  /** Python's `sub in s`: some position of `s` starts an occurrence of `sub`. */
  predicate Contains(s: string, sub: string)
  {
    exists i | 0 <= i <= |s| - |sub| :: OccursAt(s, sub, i)
  }

  /** The left-to-right scan Python performs finds the same answer: an
      occurrence at the front, or one further along. */
  lemma ContainsScan(s: string, sub: string)
    ensures Contains(s, sub) <==> StartsWith(s, sub) || (|s| > 0 && Contains(s[1..], sub))
  {
    if Contains(s, sub) {
      var i :| 0 <= i <= |s| - |sub| && OccursAt(s, sub, i);
      if i > 0 {
        assert s[1..][i - 1..i - 1 + |sub|] == s[i..i + |sub|];
        assert OccursAt(s[1..], sub, i - 1);
      }
    }
    if StartsWith(s, sub) {
      assert OccursAt(s, sub, 0);
    }
    if |s| > 0 && Contains(s[1..], sub) {
      var i :| 0 <= i <= |s| - 1 - |sub| && OccursAt(s[1..], sub, i);
      assert s[1..][i..i + |sub|] == s[i + 1..i + 1 + |sub|];
      assert OccursAt(s, sub, i + 1);
    }
  }

  lemma ShorterNeverContains(s: string, sub: string)
    requires |s| < |sub|
    ensures !Contains(s, sub)
  {
  }

  /** An occurrence cannot start inside a prefix lacking the first character
      of `sub`, so the search may skip that prefix. */
  lemma {:induction false} ContainsSkipsPrefix(p: string, q: string, sub: string)
    requires sub != [] && sub[0] !in p
    ensures Contains(p + q, sub) <==> Contains(q, sub)
    decreases |p|
  {
    if p != [] {
      assert (p + q)[0] == p[0] && p[0] in p;
      assert (p + q)[1..] == p[1..] + q;
      assert forall c :: c in p[1..] ==> c in p;
      ContainsScan(p + q, sub);
      ContainsSkipsPrefix(p[1..], q, sub);
    } else {
      assert p + q == q;
    }
  }

  // ---------------------------------------------------------------------------
  // s.split(sep) and its inverse sep.join(parts)

  /** `sep.join(parts)`. */
  function Join(parts: seq<string>, sep: string): string
  {
    if |parts| == 0 then []
    else if |parts| == 1 then parts[0]
    else parts[0] + sep + Join(parts[1..], sep)
  }

  /** Python's `s.split(sep)` for a non-empty separator: cut at every
      occurrence, leftmost first and non-overlapping, keeping empty fields.
      `sep.join` undoes it. */
  function Split(s: string, sep: string): (parts: seq<string>)
    requires sep != []
    ensures |parts| >= 1
    ensures Join(parts, sep) == s
    decreases |s|
  {
    if |s| < |sep| then [s]
    else if StartsWith(s, sep) then
      var rest := Split(s[|sep|..], sep);
      assert ([[]] + rest)[1..] == rest;
      [[]] + rest
    else
      var rest := Split(s[1..], sep);
      var parts := [[s[0]] + rest[0]] + rest[1..];
      assert parts[1..] == rest[1..];
      parts
  }

  /** `text.split(sep)` produces a second field exactly when `sep in text`. */
  lemma {:induction false} SplitHasSecondFieldIffContains(s: string, sep: string)
    requires sep != []
    ensures |Split(s, sep)| >= 2 <==> Contains(s, sep)
    decreases |s|
  {
    if |s| < |sep| {
      ShorterNeverContains(s, sep);
    } else if StartsWith(s, sep) {
      ContainsScan(s, sep);
    } else {
      ContainsScan(s, sep);
      SplitHasSecondFieldIffContains(s[1..], sep);
    }
  }

  /** `first` is the part of `s` before the leftmost occurrence of `sep`,
      and `after` is the split of what follows that occurrence. */
  ghost predicate CutsAt(s: string, sep: string, first: string, after: seq<string>)
    requires sep != []
  {
    && OccursAt(s, sep, |first|)
    && first == s[..|first|]
    && (forall j | 0 <= j < |first| :: !OccursAt(s, sep, j))
    && after == Split(s[|first| + |sep|..], sep)
  }

  /** `s.split(sep)` cuts at the leftmost occurrence and splits the rest
      the same way: with one field there is no occurrence and the field is
      `s`; with more, the first field is the prefix before the first
      occurrence and the other fields are the split of what follows it.
      Together these determine the result, also for a separator such as
      `|||` whose occurrences can overlap. */
  lemma {:induction false} SplitCutsLeftmost(s: string, sep: string)
    requires sep != []
    ensures var parts := Split(s, sep);
      |parts| == 1 ==> parts == [s] && !Contains(s, sep)
    ensures var parts := Split(s, sep);
      |parts| >= 2 ==> CutsAt(s, sep, parts[0], parts[1..])
    decreases |s|
  {
    var parts := Split(s, sep);
    SplitHasSecondFieldIffContains(s, sep);
    if |s| < |sep| {
    } else if StartsWith(s, sep) {
      assert s[0..|sep|] == s[..|sep|];
      assert parts[0] == [] == s[..0];
    } else {
      var rest := Split(s[1..], sep);
      if |rest| >= 2 {
        SplitCutsLeftmost(s[1..], sep);
        assert !OccursAt(s, sep, 0) by {
          assert s[0..|sep|] == s[..|sep|];
        }
        CutsAtShift(s, sep, rest[0], rest[1..]);
        assert parts[0] == [s[0]] + rest[0] && parts[1..] == rest[1..];
      }
    }
  }

  /** A leftmost cut of `s[1..]` is one of `s` when no occurrence starts at 0. */
  lemma CutsAtShift(s: string, sep: string, first: string, after: seq<string>)
    requires sep != [] && |s| > 0 && !OccursAt(s, sep, 0)
    requires CutsAt(s[1..], sep, first, after)
    ensures CutsAt(s, sep, [s[0]] + first, after)
  {
    var n := |first|;
    assert [s[0]] + first == s[..n + 1];
    OccursShift(s, sep, n + 1);
    forall j | 1 <= j < n + 1 ensures !OccursAt(s, sep, j) {
      OccursShift(s, sep, j);
    }
    assert s[1..][n + |sep|..] == s[n + 1 + |sep|..];
  }

  /** An occurrence at `j >= 1` in `s` is one at `j - 1` in `s[1..]`. */
  lemma OccursShift(s: string, sub: string, j: int)
    requires 1 <= j && |s| > 0
    ensures OccursAt(s, sub, j) <==> OccursAt(s[1..], sub, j - 1)
  {
    if j + |sub| <= |s| {
      assert s[1..][j - 1..j - 1 + |sub|] == s[j..j + |sub|];
    }
  }

  /** A string in which the separator's first character never appears is a
      single field. */
  lemma {:induction false} SplitWithoutSeparatorStart(a: string, sep: string)
    requires sep != [] && sep[0] !in a
    ensures Split(a, sep) == [a]
    decreases |a|
  {
    if |a| >= |sep| {
      assert a[0] in a;
      assert a[1..] == [] || a[1..][0] in a;
      SplitWithoutSeparatorStart(a[1..], sep);
      assert [a[0]] + a[1..] == a;
    }
  }

  /** A string without the separator is a single field. */
  lemma SplitWithoutSeparator(s: string, sep: string)
    requires sep != [] && !Contains(s, sep)
    ensures Split(s, sep) == [s]
  {
    SplitHasSecondFieldIffContains(s, sep);
  }

  /** Splitting `a + sep + b`, where `a` cannot hold the start of an
      occurrence, cuts exactly after `a`. */
  lemma {:induction false} SplitAfterFirstField(a: string, sep: string, b: string)
    requires sep != [] && sep[0] !in a
    ensures Split(a + sep + b, sep) == [a] + Split(b, sep)
    decreases |a|
  {
    var s := a + sep + b;
    if a == [] {
      assert s == sep + b && s[..|sep|] == sep && s[|sep|..] == b;
    } else {
      assert s[0] == a[0] && a[0] in a;
      assert !StartsWith(s, sep);
      assert a == [a[0]] + a[1..];
      assert sep[0] !in a[1..];
      SplitAfterFirstField(a[1..], sep, b);
      assert s[1..] == a[1..] + sep + b;
      SplitStep(s, sep);
    }
  }

  /** Where `s` does not start with `sep`, its first character joins the
      first field of the split of the rest. */
  lemma SplitStep(s: string, sep: string)
    requires sep != [] && |s| >= |sep| && !StartsWith(s, sep)
    ensures var rest := Split(s[1..], sep);
      Split(s, sep) == [[s[0]] + rest[0]] + rest[1..]
  {
  }

  /** The number of occurrences of the character `c` in `s`. */
  function CountChar(s: string, c: char): nat
  {
    if s == [] then 0 else (if s[0] == c then 1 else 0) + CountChar(s[1..], c)
  }

  /** Splitting on a one-character separator yields one more field than there
      are occurrences of that character. */
  lemma {:induction false} SplitOnCharCount(s: string, c: char)
    ensures |Split(s, [c])| == CountChar(s, c) + 1
    decreases |s|
  {
    if |s| >= 1 {
      SplitOnCharCount(s[1..], c);
    }
  }

  /** No field of `s.split(sep)` contains `sep`. */
  lemma {:induction false} SplitFieldsAvoidSeparator(s: string, sep: string)
    requires sep != []
    ensures forall k :: 0 <= k < |Split(s, sep)| ==> !Contains(Split(s, sep)[k], sep)
    decreases |s|
  {
    var parts := Split(s, sep);
    if |s| < |sep| {
      ShorterNeverContains(s, sep);
    } else if StartsWith(s, sep) {
      SplitFieldsAvoidSeparator(s[|sep|..], sep);
      assert !Contains(parts[0], sep) by { ShorterNeverContains(parts[0], sep); }
      assert forall k :: 1 <= k < |parts| ==> parts[k] == Split(s[|sep|..], sep)[k - 1];
    } else {
      var rest := Split(s[1..], sep);
      SplitFieldsAvoidSeparator(s[1..], sep);
      assert forall k :: 1 <= k < |parts| ==> parts[k] == rest[k];
      var f := parts[0];
      assert f == [s[0]] + rest[0];
      // `f` is a prefix of `s`, so an occurrence at its start would be one at the start of `s`.
      assert f == s[..|f|] by {
        if |rest| == 1 {
          assert Join(rest, sep) == rest[0];
        } else {
          assert Join(rest, sep) == rest[0] + sep + Join(rest[1..], sep);
        }
        assert s[1..][..|rest[0]|] == rest[0];
      }
      assert !StartsWith(f, sep);
      assert f[1..] == rest[0];
      ContainsScan(f, sep);
    }
  }

  // ---------------------------------------------------------------------------
  // ASCII lower-casing

  function LowerChar(c: char): char
  {
    if 'A' <= c <= 'Z' then (c as int - 'A' as int + 'a' as int) as char else c
  }

  /** `s.lower()` restricted to ASCII letters (the only letters it meets here). */
  function Lower(s: string): (r: string)
    ensures |r| == |s|
    ensures forall i :: 0 <= i < |r| ==> !('A' <= r[i] <= 'Z')
    ensures forall i :: 0 <= i < |s| ==>
      if 'A' <= s[i] <= 'Z' then r[i] as int == s[i] as int + 32 else r[i] == s[i]
  {
    seq(|s|, i requires 0 <= i < |s| => LowerChar(s[i]))
  }

  // ---------------------------------------------------------------------------
  // int(s)

  predicate IsDigit(c: char)
  {
    '0' <= c <= '9'
  }

  /** ASCII digits, optionally grouped by single underscores between digits. */
  predicate IsDigitRun(s: string)
    decreases |s|
  {
    && |s| > 0
    && IsDigit(s[0])
    && (|s| == 1 || IsDigitRun(s[1..]) || (|s| > 2 && s[1] == '_' && IsDigitRun(s[2..])))
  }

  predicate IsSign(c: char)
  {
    c == '+' || c == '-'
  }

  /** The longest digit string `int()` converts: CPython's default
      `sys.get_int_max_str_digits()`, in force from Python 3.11 and the
      matching security releases of 3.7 to 3.10. */
  const MaxStrDigits := 4300

  /** The number of decimal digits in `s`; underscores and signs do not count. */
  function DigitCount(s: string): (n: nat)
    ensures n <= |s|
  {
    if s == [] then 0
    else DigitCount(s[..|s| - 1]) + (if IsDigit(s[|s| - 1]) then 1 else 0)
  }

  /** The strings `int(s)` accepts with its default base: surrounding
      whitespace, an optional sign, then a digit run of at most
      `MaxStrDigits` digits. An accepted literal strips to something that
      ends in a digit. */
  predicate IsIntLiteral(s: string): (ok: bool)
    ensures ok ==> |Strip(s)| > 0 && IsDigit(Strip(s)[|Strip(s)| - 1])
  {
    var t := Strip(s);
    if IsDigitRun(t) && DigitCount(t) <= MaxStrDigits then
      DigitRunEnds(t);
      true
    else if |t| > 0 && IsSign(t[0]) && IsDigitRun(t[1..]) && DigitCount(t[1..]) <= MaxStrDigits then
      DigitRunEnds(t[1..]);
      assert t[1..][|t| - 2] == t[|t| - 1];
      true
    else
      false
  }

  /** The decimal value of the digits of `s`, ignoring every other character. */
  function DigitsValue(s: string): nat
  {
    if s == [] then 0
    else if IsDigit(s[|s| - 1]) then DigitsValue(s[..|s| - 1]) * 10 + (s[|s| - 1] as int - '0' as int)
    else DigitsValue(s[..|s| - 1])
  }

  /** `int(s)` for an accepted literal: negative only when written with a
      leading minus. */
  function IntValue(s: string): (v: int)
    requires IsIntLiteral(s)
    ensures v < 0 ==> Strip(s)[0] == '-'
    ensures Strip(s)[0] == '-' ==> v <= 0
  {
    var t := Strip(s);
    if |t| > 0 && t[0] == '-' then 0 - DigitsValue(t[1..]) as int
    else if |t| > 0 && t[0] == '+' then DigitsValue(t[1..])
    else DigitsValue(t)
  }

  /** A digit run begins and ends with a digit. */
  lemma {:induction false} DigitRunEnds(t: string)
    requires IsDigitRun(t)
    ensures IsDigit(t[0]) && IsDigit(t[|t| - 1])
    decreases |t|
  {
    if |t| > 1 {
      if IsDigitRun(t[1..]) {
        DigitRunEnds(t[1..]);
        assert t[1..][|t| - 2] == t[|t| - 1];
      } else {
        DigitRunEnds(t[2..]);
        assert t[2..][|t| - 3] == t[|t| - 1];
      }
    }
  }

  /** A string of digits only is a digit run. */
  lemma {:induction false} DigitsMakeRun(s: string)
    requires |s| > 0 && forall k :: 0 <= k < |s| ==> IsDigit(s[k])
    ensures IsDigitRun(s)
    decreases |s|
  {
    if |s| > 1 {
      assert forall k :: 0 <= k < |s| - 1 ==> s[1..][k] == s[k + 1];
      DigitsMakeRun(s[1..]);
    }
  }

  /** Every character of an all-digit string counts as a digit. */
  lemma {:induction false} AllDigitsCount(s: string)
    requires forall k :: 0 <= k < |s| ==> IsDigit(s[k])
    ensures DigitCount(s) == |s|
    decreases |s|
  {
    if s != [] {
      AllDigitsCount(s[..|s| - 1]);
    }
  }

  /** A string whose ends are not whitespace is its own strip. */
  lemma StrippedIsOwnStrip(t: string)
    requires IsStripped(t)
    ensures Strip(t) == t
  {
    assert t[0..|t|] == t && t[..0] == [] && t[|t|..] == [];
    assert StripsTo(t, 0, t);
    StripUnique(t, 0, t);
  }

  /** The character of decimal digit `d`. */
  function DigitChar(d: nat): (c: char)
    requires d < 10
    ensures IsDigit(c) && c as int - '0' as int == d
  {
    ('0' as int + d) as char
  }

  /** `str(n)`: the decimal numeral of `n`, most significant digit first and
      without leading zeros. */
  function Decimal(n: nat): (r: string)
    ensures |r| > 0 && forall k :: 0 <= k < |r| ==> IsDigit(r[k])
    ensures |r| > 1 ==> r[0] != '0'
    decreases n
  {
    if n < 10 then [DigitChar(n)] else Decimal(n / 10) + [DigitChar(n % 10)]
  }

  lemma {:induction false} DecimalDigitsValue(n: nat)
    ensures DigitsValue(Decimal(n)) == n
    decreases n
  {
    var r := Decimal(n);
    if n < 10 {
      assert r[..0] == [];
    } else {
      assert r[..|r| - 1] == Decimal(n / 10);
      DecimalDigitsValue(n / 10);
    }
  }

  /** `int(str(n)) == n`: every numeral within the digit limit is accepted
      and read back exactly. */
  lemma DecimalRoundTrip(n: nat)
    requires |Decimal(n)| <= MaxStrDigits
    ensures IsIntLiteral(Decimal(n)) && IntValue(Decimal(n)) == n
  {
    var r := Decimal(n);
    DigitsMakeRun(r);
    AllDigitsCount(r);
    UnsignedLiteral(r);
    DecimalDigitsValue(n);
  }

  /** `int("-" + str(n)) == -n` within the digit limit. */
  lemma NegativeDecimalRoundTrip(n: nat)
    requires |Decimal(n)| <= MaxStrDigits
    ensures IsIntLiteral("-" + Decimal(n)) && IntValue("-" + Decimal(n)) == -(n as int)
  {
    var r := Decimal(n);
    DigitsMakeRun(r);
    AllDigitsCount(r);
    NegativeLiteral(r);
    DecimalDigitsValue(n);
  }

  /** A numeral longer than the digit limit is rejected, with or without a
      minus, as `int()` raises `ValueError` for it. */
  lemma LongDecimalRejected(n: nat)
    requires |Decimal(n)| > MaxStrDigits
    ensures !IsIntLiteral(Decimal(n)) && !IsIntLiteral("-" + Decimal(n))
  {
    var r := Decimal(n);
    AllDigitsCount(r);
    LongRunRejected(r);
    LongNegativeRunRejected(r);
  }

  /** A digit run within the limit, with nothing around it, reads as its digits. */
  lemma UnsignedLiteral(r: string)
    requires IsDigitRun(r) && DigitCount(r) <= MaxStrDigits
    ensures IsIntLiteral(r) && IntValue(r) == DigitsValue(r)
  {
    DigitRunEnds(r);
    StrippedIsOwnStrip(r);
  }

  /** A minus before a digit run within the limit negates its digits. */
  lemma NegativeLiteral(r: string)
    requires IsDigitRun(r) && DigitCount(r) <= MaxStrDigits
    ensures IsIntLiteral("-" + r) && IntValue("-" + r) == -(DigitsValue(r) as int)
  {
    var t := "-" + r;
    DigitRunEnds(r);
    assert t[|t| - 1] == r[|r| - 1];
    StrippedIsOwnStrip(t);
    assert t[1..] == r;
  }

  /** Too many digits are rejected. */
  lemma LongRunRejected(r: string)
    requires r != [] && IsDigit(r[0]) && IsDigit(r[|r| - 1]) && DigitCount(r) > MaxStrDigits
    ensures !IsIntLiteral(r)
  {
    assert !IsSign(r[0]) && !IsSpace(r[0]) && !IsSpace(r[|r| - 1]);
    IntLiteralOfStripped(r);
  }

  /** Too many digits are rejected behind a minus too. */
  lemma LongNegativeRunRejected(r: string)
    requires r != [] && IsDigit(r[0]) && IsDigit(r[|r| - 1]) && DigitCount(r) > MaxStrDigits
    ensures !IsIntLiteral("-" + r)
  {
    var t := "-" + r;
    assert t[|t| - 1] == r[|r| - 1];
    assert t[1..] == r;
    assert t[0] == '-' && !IsDigit(t[0]) && !IsSpace(r[|r| - 1]);
    assert IsStripped(t);
    IntLiteralOfStripped(t);
  }

  /** On a text with no whitespace at its ends, `int()` looks at the text itself. */
  lemma IntLiteralOfStripped(t: string)
    requires IsStripped(t)
    ensures IsIntLiteral(t) <==>
      || (IsDigitRun(t) && DigitCount(t) <= MaxStrDigits)
      || (|t| > 0 && IsSign(t[0]) && IsDigitRun(t[1..]) && DigitCount(t[1..]) <= MaxStrDigits)
  {
    StrippedIsOwnStrip(t);
  }

  /** Whitespace around `a` and `b` together is whitespace. */
  lemma AllSpaceConcat(a: string, b: string)
    requires AllSpace(a) && AllSpace(b)
    ensures AllSpace(a + b)
  {
    forall k | 0 <= k < |a + b|
      ensures SpaceAt(a + b, k)
    {
      if k < |a| {
        assert SpaceAt(a, k);
      } else {
        assert SpaceAt(b, k - |a|);
      }
    }
  }

  /** Extra whitespace around a string does not change what it strips to. */
  lemma StripIgnoresPadding(pre: string, s: string, post: string)
    requires AllSpace(pre) && AllSpace(post)
    ensures Strip(pre + s + post) == Strip(s)
  {
    PaddedStrip(pre, s, post, |s| - |TrimLeft(s)|, Strip(s));
  }

  lemma PaddedStrip(pre: string, s: string, post: string, i: int, r: string)
    requires AllSpace(pre) && AllSpace(post) && StripsTo(s, i, r)
    ensures Strip(pre + s + post) == r
  {
    PaddedStripsTo(pre, s, post, i, r);
    StripUnique(pre + s + post, |pre| + i, r);
  }

  lemma PaddedStripsTo(pre: string, s: string, post: string, i: int, r: string)
    requires AllSpace(pre) && AllSpace(post) && StripsTo(s, i, r)
    ensures StripsTo(pre + s + post, |pre| + i, r)
  {
    var p := pre + s + post;
    var j := |pre| + i;
    assert p[j..j + |r|] == s[i..i + |r|];
    assert p[..j] == pre + s[..i];
    AllSpaceConcat(pre, s[..i]);
    assert p[j + |r|..] == s[i + |r|..] + post;
    AllSpaceConcat(s[i + |r|..], post);
  }

  /** A stripped string with whitespace around it strips back to itself. */
  lemma StripOfPadded(pre: string, x: string, post: string)
    requires AllSpace(pre) && AllSpace(post) && IsStripped(x)
    ensures Strip(pre + x + post) == x
  {
    StripIgnoresPadding(pre, x, post);
    StrippedIsOwnStrip(x);
  }

  lemma StripOfLeftPadded(pre: string, x: string)
    requires AllSpace(pre) && IsStripped(x)
    ensures Strip(pre + x) == x
  {
    assert pre + x == pre + x + [];
    StripOfPadded(pre, x, []);
  }

  lemma StripOfRightPadded(x: string, post: string)
    requires AllSpace(post) && IsStripped(x)
    ensures Strip(x + post) == x
  {
    assert x + post == [] + x + post;
    StripOfPadded([], x, post);
  }

  lemma OneSpace()
    ensures AllSpace(" ") && AllSpace([])
  {
    assert SpaceAt(" ", 0);
  }

  /** `int()` ignores surrounding whitespace: padding an accepted literal
      keeps it accepted with the same value. */
  lemma PaddedIntLiteral(pre: string, s: string, post: string)
    requires AllSpace(pre) && AllSpace(post) && IsIntLiteral(s)
    ensures IsIntLiteral(pre + s + post) && IntValue(pre + s + post) == IntValue(s)
  {
    StripIgnoresPadding(pre, s, post);
    SameStripSameInt(s, pre + s + post);
  }

  /** `int()` reads only what `strip()` leaves. */
  lemma SameStripSameInt(a: string, b: string)
    requires Strip(a) == Strip(b) && IsIntLiteral(a)
    ensures IsIntLiteral(b) && IntValue(b) == IntValue(a)
  {
  }
}

=== FILE: script.dfy ===
/**
  The scripted consultative-sales dialogue (script.py): a fixed table of
  steps, each with the agent's text and the labelled answers the user can
  pick, every answer naming the step it leads to. `get_state` looks a step
  up by id.

  The lemmas treat the table as a graph whose edges are the answers: it is
  closed, every edge moves to a larger id, so every conversation ends, and
  it ends exactly at the three closing steps.
 */
module Script {
  import opened Wrappers

  /** An answer (its button label) and the id of the step it leads to. */
  datatype Choice = Choice(caption: string, next: int)

  /** The agent's text and the answers offered; no answers closes the dialogue. */
  datatype Step = Step(text: string, options: seq<Choice>)

  const Text0 := "Hi Sarah! \U{1F44B} As a business owner, I know "
      + "you wear a lot of hats. To help me recommend "
      + "the right tools, what's taking up the biggest "
      + "chunk of your administrative time lately?"
  const Text1 := "Contracts are definitely time-consuming. "
      + "\U{1F4C4} \n\nWhen you send a proposal to a client, "
      + "how are you currently getting them to sign "
      + "it?"
  const Text2 := "Keeping files organized is key. I often "
      + "see creative agencies struggle with version "
      + "control on legal documents.\n\nHow do you "
      + "currently handle client sign-offs?"
  const Text3 := "I hear that often. In fact, many **agencies "
      + "similar to yours** have switched to Google "
      + "eSignature recently to eliminate that 'tab-switching "
      + "fatigue'. \n\nConsolidating your tools saves "
      + "time and prevents version errors. Did you "
      + "know you can request signatures directly "
      + "inside this Doc?"
  const Text4 := "It's seamless. You just drag a signature "
      + "field onto the page, email it to the client, "
      + "and they sign it instantly\U{2014}**no Google account "
      + "required for them**. \n\nIt stays integrated "
      + "in Drive, so you never lose a contract again."
  const Text5 := "Absolutely. Google eSignature complies with "
      + "the same industry standards as major providers "
      + "(like eIDAS). It automatically generates "
      + "a secure audit trail for every contract."
  const Text6 := "The Business Standard plan is **$12/user/month**. "
      + "\n\nThat includes eSignature, but you also "
      + "get **Gemini AI** to help write proposals, "
      + "**Appointment Booking** pages for clients, "
      + "and **2TB** of secure storage."
  const Text7 := "I understand. Budget is tight for growing "
      + "agencies.\n\nI really want you to experience "
      + "the productivity boost. I can offer you "
      + "a **20% discount** on the annual plan, OR "
      + "a **30-day Free Trial** to test it out."
  const Text8 := "\U{1F389} Upgrade Initiated! \n\nWe've applied the "
      + "discount. Please refresh this tab. You will "
      + "see the **eSignature** option appear in "
      + "your 'Insert' menu within 30 seconds."
  const Text9 := "\U{2705} Your 30-Day Free Trial is active! \n\nYou "
      + "can use eSignatures immediately. We won't "
      + "charge you until the trial ends, and you "
      + "can cancel anytime."
  const Text99 := "No problem at all! The offer will remain "
      + "in your Admin Console if you decide to streamline "
      + "your contracts later. \n\nHave a productive "
      + "day, Sarah!"

  /** The agent's text at step `id` of the table. */
  function TextOf(id: int): string
    requires id in Answers
  {
    match id
    case 0 => Text0
    case 1 => Text1
    case 2 => Text2
    case 3 => Text3
    case 4 => Text4
    case 5 => Text5
    case 6 => Text6
    case 7 => Text7
    case 8 => Text8
    case 9 => Text9
    case 99 => Text99
  }

  /** The answers offered at each step. */
  const Answers: map<int, seq<Choice>> := map[
    0 := [
      Choice("Managing client contracts", 1),
      Choice("Organizing project files", 2)
    ],
    1 := [
      Choice("I pay for DocuSign", 3),
      Choice("I print, sign, and scan", 3)
    ],
    2 := [
      Choice("External eSign tools", 3),
      Choice("Email threads & scans", 3)
    ],
    3 := [
      Choice("Really? How?", 4),
      Choice("Is it secure?", 5)
    ],
    4 := [
      Choice("How much is it?", 6),
      Choice("I'm not ready to switch.", 7)
    ],
    5 := [Choice("Sounds good. Pricing?", 6)],
    6 := [
      Choice("Okay, upgrade me.", 8),
      Choice("It's a bit over budget.", 7)
    ],
    7 := [
      Choice("I'll take the 20% discount!", 8),
      Choice("Start 30-Day Free Trial", 9),
      Choice("No thanks, I'll pass.", 99)
    ],
    8 := [],
    9 := [],
    99 := []
  ]

  /** The ids `get_state` knows. */
  const StepIds: set<int> := {0, 1, 2, 3, 4, 5, 6, 7, 8, 9, 99}

  /** The closing steps: upgrade, trial and walk-away. */
  const ClosingIds: set<int> := {8, 9, 99}

  /** `get_state(step_id)`: the step for a known id, `None` for any other. */
  function GetState(stepId: int): (step: Option<Step>)
    ensures step.Some? <==> stepId in StepIds
    ensures step.Some? ==> step.value.options == Answers[stepId]
    ensures step.Some? ==> (step.value.options == [] <==> stepId in ClosingIds)
  {
    if stepId in Answers then Some(Step(TextOf(stepId), Answers[stepId])) else None
  }

  // ---------------------------------------------------------------------------
  // The dialogue as a graph

  /** Some answer of step `from` leads to step `to`. */
  predicate Edge(from: int, to: int)
  {
    from in Answers && exists k | 0 <= k < |Answers[from]| :: Answers[from][k].next == to
  }

  /** Every answer leads to a step of the table. */
  lemma AnswersStayInTable()
    ensures forall from, to :: Edge(from, to) ==> to in Answers
  {
  }

  /** Every answer leads to a step with a larger id. */
  lemma AnswersMoveForward()
    ensures forall from, to :: Edge(from, to) ==> from < to
  {
  }

  /** The closing steps offer no answer; every other step offers one to
      three, with distinct labels. */
  lemma AnswerCounts()
    ensures forall id :: id in Answers ==> (Answers[id] == [] <==> id in ClosingIds)
    ensures forall id :: id in Answers ==> |Answers[id]| <= 3
    ensures forall id, j, k :: id in Answers && 0 <= j < k < |Answers[id]| ==>
      Answers[id][j].caption != Answers[id][k].caption
  {
  }

  /** Trial and walk-away are reached only from the discount offer (step 7);
      the upgrade from the pricing step (6) and the discount offer. */
  lemma ClosingPredecessors()
    ensures forall from :: Edge(from, 9) <==> from == 7
    ensures forall from :: Edge(from, 99) <==> from == 7
    ensures forall from :: Edge(from, 8) <==> from == 6 || from == 7
  {
    assert Answers[7][0].next == 8 && Answers[6][0].next == 8;
    assert Answers[7][1].next == 9 && Answers[7][2].next == 99;
  }

  // ---------------------------------------------------------------------------
  // Conversations

  /** `p` lists the steps of a conversation: it starts at a step of the
      table and each later step is reached by an answer of the one before. */
  ghost predicate IsPath(p: seq<int>)
  {
    |p| >= 1 && p[0] in Answers && forall i :: 0 <= i < |p| - 1 ==> Edge(p[i], p[i + 1])
  }

  /** The most answers a conversation can still take from each step. */
  const Remaining: map<int, nat> :=
    map[0 := 6, 1 := 5, 2 := 5, 3 := 4, 4 := 3, 5 := 3, 6 := 2, 7 := 1, 8 := 0, 9 := 0, 99 := 0]

  /** Every answer strictly lowers `Remaining`, which is zero exactly at the
      closing steps. */
  lemma AnswersLowerRemaining()
    ensures Remaining.Keys == Answers.Keys
    ensures forall from, to :: Edge(from, to) ==> Remaining[to] < Remaining[from]
    ensures forall id :: id in Remaining ==> (Remaining[id] == 0 <==> id in ClosingIds)
  {
  }

  /** A conversation starting at `p[0]` has at most `Remaining[p[0]]` answers. */
  lemma {:induction false} PathLengthBound(p: seq<int>)
    requires IsPath(p)
    ensures |p| <= Remaining[p[0]] + 1
    decreases |p|
  {
    AnswersLowerRemaining();
    if |p| > 1 {
      assert Edge(p[0], p[1]);
      AnswersStayInTable();
      assert IsPath(p[1..]) by {
        forall i | 0 <= i < |p[1..]| - 1 ensures Edge(p[1..][i], p[1..][i + 1]) {
          assert Edge(p[i + 1], p[i + 2]);
        }
      }
      PathLengthBound(p[1..]);
    }
  }

  /** Every conversation from the greeting ends after at most six answers. */
  lemma ConversationsEnd(p: seq<int>)
    requires IsPath(p) && p[0] == 0
    ensures |p| <= 7
  {
    PathLengthBound(p);
  }

  /** A conversation not yet at a closing step can always go on (with that
      step's first answer, say), and one at a closing step has no answer
      left: so every conversation that stops, stops at a closing step. */
  lemma OnlyClosingStepsStop(p: seq<int>)
    requires IsPath(p)
    ensures p[|p| - 1] in Answers
    ensures p[|p| - 1] !in ClosingIds ==>
      Answers[p[|p| - 1]] != [] && IsPath(p + [Answers[p[|p| - 1]][0].next])
    ensures p[|p| - 1] in ClosingIds ==> Answers[p[|p| - 1]] == []
  {
    AnswersStayInTable();
    AnswerCounts();
    var last := p[|p| - 1];
    assert last in Answers by {
      if |p| > 1 { assert Edge(p[|p| - 2], p[|p| - 1]); }
    }
    if last !in ClosingIds {
      var q := p + [Answers[last][0].next];
      assert Edge(last, q[|q| - 1]);
      forall i | 0 <= i < |q| - 1 ensures Edge(q[i], q[i + 1]) {
        if i < |p| - 1 { assert Edge(p[i], p[i + 1]); }
      }
    }
  }

  /** `p` is a conversation from the greeting to step `id`. */
  ghost predicate Reaches(p: seq<int>, id: int)
  {
    IsPath(p) && p[0] == 0 && p[|p| - 1] == id
  }

  /** Every step can be reached from the greeting. */
  lemma StepReachable(id: int)
    requires id in Answers
    ensures exists p :: Reaches(p, id)
  {
    var p: seq<int>;
    if id == 0 {
      p := [0];
    } else if id == 1 {
      p := [0, 1];
      assert Answers[0][0].next == 1;
    } else if id == 2 {
      p := [0, 2];
      assert Answers[0][1].next == 2;
    } else if id == 3 {
      p := [0, 1, 3];
      assert Answers[0][0].next == 1 && Answers[1][0].next == 3;
    } else if id == 4 {
      p := [0, 1, 3, 4];
      assert Answers[0][0].next == 1 && Answers[1][0].next == 3;
      assert Answers[3][0].next == 4;
    } else if id == 5 {
      p := [0, 1, 3, 5];
      assert Answers[0][0].next == 1 && Answers[1][0].next == 3;
      assert Answers[3][1].next == 5;
    } else if id == 6 {
      p := [0, 1, 3, 4, 6];
      assert Answers[0][0].next == 1 && Answers[1][0].next == 3;
      assert Answers[3][0].next == 4 && Answers[4][0].next == 6;
    } else if id == 7 {
      p := [0, 1, 3, 4, 7];
      assert Answers[0][0].next == 1 && Answers[1][0].next == 3;
      assert Answers[3][0].next == 4 && Answers[4][1].next == 7;
    } else if id == 8 {
      p := [0, 1, 3, 4, 6, 8];
      assert Answers[0][0].next == 1 && Answers[1][0].next == 3;
      assert Answers[3][0].next == 4 && Answers[4][0].next == 6;
      assert Answers[6][0].next == 8;
    } else if id == 9 {
      p := [0, 1, 3, 4, 7, 9];
      assert Answers[0][0].next == 1 && Answers[1][0].next == 3;
      assert Answers[3][0].next == 4 && Answers[4][1].next == 7;
      assert Answers[7][1].next == 9;
    } else {
      assert id == 99;
      p := [0, 1, 3, 4, 7, 99];
      assert Answers[0][0].next == 1 && Answers[1][0].next == 3;
      assert Answers[3][0].next == 4 && Answers[4][1].next == 7;
      assert Answers[7][2].next == 99;
    }
    assert Reaches(p, id);
  }

  /** Six answers are sometimes needed: the bound of `ConversationsEnd` is met. */
  lemma LongestConversation()
    ensures Reaches([0, 1, 3, 4, 6, 7, 8], 8)
  {
    assert Answers[0][0].next == 1 && Answers[1][0].next == 3;
    assert Answers[3][0].next == 4 && Answers[4][0].next == 6;
    assert Answers[6][1].next == 7 && Answers[7][0].next == 8;
  }
}

=== FILE: wrappers.dfy ===
/** Python's `None`-or-value, as returned by `dict.get` and held in optional session fields. */
module Wrappers {

  datatype Option<+T> = None | Some(value: T)
}
